=== FILE: README.md ===
# BeerBot data layer, modelled in Dafny

BeerBot is a Discord bot with a small web dashboard. Users register with
`/register` and log drinks with `/drink`. The dashboard shows a weekly
leaderboard and per-user statistics. All state lives in PostgreSQL.

This project models the bot's data layer:

- **Registration and logging as a state machine.** `Tables.Database` is the
  whole database as one immutable value: `users`, `servers`,
  `server_members` and `drinks` as sequences of rows, plus the sequence that
  hands out `users.id`. Each SQL statement the bot issues is a pure
  transformer in `tables.dfy`:
  - `INSERT … ON CONFLICT DO NOTHING` becomes insert-if-absent.
  - `ON CONFLICT (discord_id) DO UPDATE SET username = EXCLUDED.username RETURNING id`
    becomes an upsert that keeps the id and overwrites the name.
  - A plain `INSERT INTO drinks` becomes an append.
  - Uniqueness of ids, discord ids, server ids and membership pairs is the
    invariant `Tables.Valid`. Every operation is proved to preserve it.
- **Two revisions of the handlers, in three files, each built on those statements:**
  - `db.dfy` and `commands.dfy`: the current revision. `db.dfy` holds
    `ensure_user_registered`, `check_user_registered` and `log_drink`;
    `commands.dfy` holds `register_command` and `drink_command`, which call them.
    An interaction may come from a direct message, which has no guild; the
    handlers then fail where they first read the guild's id, before any write.
  - `oldbot.dfy`: the older single-file bot: its registration helpers, its
    two commands, and its `log_drink` helper. That helper registers unknown
    users as `User#<discord id>`, but nothing in the file calls it.
- **The schema script** (`initdb.dfy`):
  - its DDL as a transformer of a catalog of relations;
  - the constraints of its `users`/`drinks` tables (UNIQUE, foreign key,
    `ON DELETE CASCADE`, `DEFAULT 1`) as guarded row operations;
  - its `weekly_leaderboard` view as a function of users, drinks and the
    start of the week.
- **The dashboard** (`web.dfy`), following its PostgreSQL branch: the
  rolling-seven-day leaderboard query, the
  `me` query (newest 50 rows of one user), and the statistics `me` computes
  from those rows.
- **Shared pieces** (`counting.dfy`): counting, filtering, ordering and
  `Counter.most_common`. `base.dfy` holds `Option`/`Result`, Python
  truthiness and Python's `str()` of an integer.

The files do not share one schema, and the model keeps them apart:

- `init-db.py`'s `drinks` has no `server_id`, and its `user_id` may be NULL.
- The web dashboard reads a separate `drink_logs` table that carries
  `username` and `drink_class`.

Each file's rows are modelled as that file uses them.

Modelling decisions that follow PostgreSQL and Python semantics:

- **The id sequence advances on every upsert.** PostgreSQL evaluates the
  `nextval` default before it detects the conflict. So registering twice
  leaves every table unchanged (`Tables.SameRows`) but not the sequence.
  For the same reason, an insert into the schema script's tables that a
  constraint refuses still consumes its sequence value (`InitDb.Inserted`).
- **The two revisions test registration differently.** The current
  `drink_command` tests `if not user_id`: truthiness of the id, so an id of 0
  would count as "not registered". The older one tests whether any row came
  back. Ids come from a sequence starting at 1, so on a valid database the two
  tests agree (`OldBot.DrinkRevisionsAgree`).
- **`if server_id:` is Python truthiness.** `None` and `0` both skip the
  server and membership writes in `register_user`.
- **Leaderboard ties have no fixed order.** Neither SQL leaderboard breaks ties
  in its count order. So the correct answer is the predicate
  `Counting.Ranks`, which admits any order among equal counts.
  `Counting.Rank` computes one such answer, and `Counting.RanksUnique` proves
  that all answers hold the same rows.
- **`Counter.most_common(1)` breaks ties by first appearance.** With `n == 1`
  it returns the first maximal element in insertion order. So the favourite
  class is the earliest-seen class among those with the highest count.
- **Time is in whole seconds.** Timestamps are integer seconds since the Unix
  epoch, UTC. `date_trunc('week', NOW())` is the Monday 00:00 at or before
  `now`. The epoch was a Thursday, so that Monday is
  `now - (now - 4 days) mod 7 days`.

Both leaderboards count rows; they do not sum quantities. No handler checks
the quantity it is given. The older revision's `/drink` refuses unregistered
users just as the current one does. Only its `log_drink` helper registers a
user on the first drink, and nothing in `old/bot.py` calls that helper.

## Model

| member | source | states |
|---|---|---|
| Tables.UpsertUser | db.py:27-32 | after the upsert the discord id maps to a user with the returned id and the new username; a known user keeps its id and the table its size, an unknown one is appended with an id no user had; every other discord id's row is unchanged; other tables untouched; the id sequence advances by one on both paths, the conflicting one included; uniqueness preserved |
| Tables.InsertServerIfAbsent | db.py:35-38 | the server exists afterwards; an existing server, and so its name, is left exactly as it was; otherwise one row with the given name is appended; other servers' names unchanged (`Tables.AddsServer`) |
| Tables.InsertMemberIfAbsent | db.py:41-44 | the (user, server) pair is present afterwards; a present pair leaves the database unchanged, an absent one is appended once (`Tables.AddsMember`); uniqueness preserved |
| Tables.SelectUserId | old/bot.py:98-102 | a row comes back exactly when some user has the discord id, and it is that user's id |
| Db.EnsureUserRegistered | db.py:24-47 | the user exists with the given username and the returned id, which is the old id if the user existed and a fresh one appended otherwise; other users unchanged; `servers` gains the server only if it was absent, so an existing one keeps its name and every other server is untouched; `server_members` gains the pair only if it was absent, and holds it exactly once; drinks untouched; the upsert draws one value from the id sequence whether or not the user existed |
| Db.EnsureUserRegisteredIdempotent | db.py:24-47 | a second identical call returns the same id and leaves every table as the first call left it |
| Db.CheckUserRegistered | db.py:49-51 | returns `None` exactly when no user has the discord id, otherwise the id of the user that has it (at least 1 on a valid database); it is a read |
| Db.CheckAfterEnsure | db.py:24-51 | after registering, the check returns the id that registration returned |
| Db.LogDrink | db.py:53-58 | exactly one row is appended with the given user, server, name and timestamp; quantity is the given one or 1 when omitted; earlier rows, the other tables and the id sequence are unchanged |
| Commands.RegisterCommand | commands.py:6-21 | without a guild it fails and writes nothing; in a guild it delegates to `ensure_user_registered` with the user id, `str(user)` and the guild: the user exists with that name, other users unchanged; `servers` gains the guild only if absent, so an existing guild keeps its name; `server_members` gains the pair only if absent and holds it exactly once; the id sequence advances by one. In both cases an existing user keeps its id and drinks are untouched |
| Commands.RegisterCommandIdempotent | commands.py:9-14 | running the command twice leaves the tables as after the first run |
| Commands.DrinkCommand | commands.py:23-54 | refuses, writing nothing, exactly when the id lookup is not truthy; a registered user without a guild gets the error reply and nothing is written; otherwise users are unchanged, `servers` gains the guild only if absent (an existing one keeps its name), `server_members` gains the pair only if absent and holds it exactly once, and exactly one drink row with the given name and quantity (default 1) is appended, with the id sequence untouched |
| Commands.DrinkGateIsRegistration | commands.py:27-32 | on a valid database the command refuses exactly when the user is not registered |
| Commands.RegisterThenDrink | commands.py:6-46 | in a guild, after `/register` the same user's `/drink` is accepted and appends exactly one row; in a direct message neither command writes, and the drink is refused as unregistered exactly when the user never registered |
| OldBot.EnsureServer | old/bot.py:63-68 | the server exists afterwards; an existing server row is untouched; otherwise it is appended with the given name; the other tables and the id sequence are unchanged |
| OldBot.RegisterUser | old/bot.py:70-92 | upserts by discord id (same id on repeat, username overwritten, others unchanged); servers and memberships change only when `server_id` is truthy, and then `servers` gains the server only if absent (keeping an existing name) and `server_members` gains the pair only if absent, holding it exactly once; the id sequence advances by one in every case |
| OldBot.RegisterUserIdempotent | old/bot.py:75-92 | a second identical call returns the same id and leaves the tables unchanged |
| OldBot.AutoUsernamesDistinct | old/bot.py:105 | the generated names `User#<discord id>` of distinct discord ids differ |
| OldBot.LogDrink | old/bot.py:94-114 | always reports success; `servers` gains the server only if absent, keeping an existing name; an unknown user is appended as `User#<discord id>` and, when the server id is truthy, the pair is added if absent, while a server id of 0 leaves memberships unchanged; a known user is reused with users and memberships unchanged; exactly one drink row for that user is appended with quantity defaulting to 1; the id sequence advances by one for an auto-registered user and is otherwise unchanged |
| OldBot.RegisterCommand | old/bot.py:133-166 | without a guild it fails and writes nothing; in a guild `servers` gains the guild only if absent, keeping an existing name, the user exists with `str(user)`, other users unchanged, and `server_members` gains the pair only if absent and holds it exactly once; the id sequence advances by one. In both cases an existing user keeps its id and drinks are untouched |
| OldBot.RegisterRevisionsAgree | old/bot.py:138-154 | inserting the server before rather than after the user yields the same database and reply as the current revision's register command |
| OldBot.DrinkCommand | old/bot.py:170-216 | refuses, writing nothing, exactly when no user row comes back; a known user without a guild gets the error reply and nothing is written; otherwise users are unchanged, `servers` gains the guild only if absent (keeping an existing name), `server_members` gains the pair only if absent, and one drink row with the given name and quantity is appended, with the id sequence untouched |
| OldBot.DrinkRevisionsAgree | old/bot.py:176-187 | on a valid database the row-emptiness test and the current revision's id-truthiness test give the same outcome |
| Base.IntToDecimalRoundTrip | old/bot.py:105 | the decimal rendering of a discord id reads back as that id |
| InitDb.CreateTableIfNotExists | init-db.py:15-20 | the table exists afterwards; an existing relation of that name is kept whatever its definition |
| InitDb.CreateOrReplaceView | init-db.py:32-40 | fails exactly when the name is a table or an existing view's columns are not a prefix of the new ones; otherwise the view is (re)defined |
| InitDb.CreateDrinksTable | init-db.py:23-29 | a no-op when `drinks` exists; otherwise fails exactly when `users` is not a table with an `id` column for the foreign key to reference |
| InitDb.InitSql | init-db.py:13-41 | the script succeeds exactly when the foreign key resolves (or `drinks` already exists), the view's query finds `users.id`, `users.username`, `drinks.id`, `drinks.user_id` and `drinks.created_at`, and any existing `weekly_leaderboard` is a view whose columns the new one extends; on success all three relations exist, `users` and `drinks` are the existing relations or, when created, exactly the script's tables, the view has the script's columns, and every other relation is kept |
| InitDb.InitCatalog | init-db.py:44-62 | existing tables are never altered; other relations are kept; when the script succeeds the three relations exist, a created `users` or `drinks` has exactly the script's columns, and the view has its defined columns; when it fails the transaction rolls back and the catalog is unchanged |
| InitDb.InitRollsBack | init-db.py:23-38 | for every catalog: a `users` view with no `drinks` yet, or a `users` lacking `username`, makes the whole script roll back; a `users` view next to an existing `drinks` does not, the foreign key being checked only when `drinks` is created |
| InitDb.InitOnEmpty | init-db.py:13-41 | on an empty database the script creates exactly `users`, `drinks` and `weekly_leaderboard` |
| InitDb.InitIdempotent | init-db.py:13-41 | running the script again leaves the catalog unchanged |
| InitDb.InsertUser | init-db.py:15-20 | refused exactly when the discord id is taken, so at most one user per discord id, and a refusal writes no row; otherwise one user with the next id is appended; either way the id sequence advances, since the SERIAL default is drawn before the check; constraints preserved |
| InitDb.InsertDrink | init-db.py:23-29 | refused exactly when a non-NULL `user_id` names no user, and a refusal writes no row; otherwise one row with the next id is appended, with quantity 1 when omitted; either way the id sequence advances; constraints preserved |
| InitDb.DeleteUser | init-db.py:25 | removes exactly the user with that id and exactly the drinks whose `user_id` is that id; both SERIAL sequences are unchanged; constraints, the foreign key included, still hold |
| InitDb.WeekStart | init-db.py:38 | the week start is a Monday 00:00 at or before `now` and less than seven days before it |
| InitDb.WeekStartUnique | init-db.py:38 | no other Monday 00:00 lies in that span, so the week start is determined |
| InitDb.WeeklyLeaderboard | init-db.py:32-40 | one row per distinct username of `users`, each counted over this week's joined drinks, ordered by count, largest first |
| InitDb.ViewCountsOwnedDrinks | init-db.py:33-39 | with unique user ids, the join's count for a username equals the number of this week's drinks whose owner has that username |
| InitDb.WeeklyLeaderboardMeaning | init-db.py:32-40 | each username appears once, users sharing a name are merged, every user's name appears (with 0 when it has no drinks this week), each count is that name's drinks since the week start, rows ordered by count |
| InitDb.WeekInsideRollingWindow | init-db.py:38 | every drink the weekly view counts also lies within the last seven days |
| Web.Leaderboard | web.py:31-55 | the result ranks exactly the usernames of rows from the last seven days, each with its number of such rows |
| Web.LeaderboardMeaning | web.py:36-51 | each recent username appears once with count at least 1, counts are per-username row counts in the window, rows are in non-increasing count order, and the counts add up to the number of recent rows |
| Web.LeaderboardIgnoresOldRows | web.py:39 | a row older than seven days does not change the leaderboard |
| Web.LeaderboardCountsNewRow | web.py:36-41 | a new recent row raises its own username's count by one and no other |
| Web.FetchUserDrinks | web.py:64-79 | returns only the user's rows, newest first, min(50, count) of them, and no left-out row of the user is newer than a returned one |
| Web.ClassesOf | web.py:86 | one class per row that has a non-empty class, in row order, each that row's class; there are none exactly when no row has a class |
| Web.Me | web.py:58-91 | total is the number of fetched rows (at most 50); last drinks are the first min(5, total) fetched rows; favourite is `None` exactly when no row has a class, otherwise the earliest-seen class of maximal count; the weekly count is the number of fetched rows from the last seven days, hence at most total |
| Web.WeeklyCountAsWritten | web.py:89-91 | the weekly sum raises a `TypeError` exactly when some fetched `created_at` is not a `datetime`; otherwise it is at most the number of rows |
| Web.SqliteWeeklyCountRaises | web.py:91 | when every fetched `created_at` is text, as on the SQLite backend, the sum raises for any non-empty page |
| Web.WeeklyCountOnDatetimes | web.py:89-91 | over `datetime` values the sum is the number of the page's rows from the last seven days, the weekly count `Me` returns |
| Counting.MostCommon | web.py:86-87 | `None` exactly for no classes; otherwise a value of maximal count such that every value seen before it occurs strictly less often |
| Counting.MostCommonUnique | web.py:87 | that description admits only one value, so the favourite is determined |
| Counting.RanksUnique | web.py:41 | any two correct answers to a grouped count ordered only by count hold the same rows; only the order of ties may differ |
| Counting.SortedPrefixDominates | web.py:68-69 | cutting the newest-first order after the limit leaves out no row newer than one kept |

## Left out

- Discord client setup, command-tree registration and sync, `hello_command`, and interaction defer and follow-up messages. These are I/O with no decision logic; a reply is modelled only by its kind (`Commands.Reply`).
- The Flask application, its routes and `render_template`; `me`'s statistics are returned as a record instead of a page.
- Database connections, SSL, URL and environment parsing, and `execute_query`'s logging and re-raise. These are driver calls. Statements of the bot database never fail in the model. The only `except` path modelled is a handler run without a guild (reply `Commands.Failed`, no writes); a failing statement or follow-up is not.
- Thread and asyncio startup (`main.py`, `bot.py`) and logging. They are concurrency and side effects only.
- The DDL of `servers`, `server_members`, the bot's `drinks` (with `server_id`) and `drink_logs` is not part of this model. The model assumes a primary key on `servers.id` and on the `server_members` pair, no foreign keys among those tables, and non-NULL `username`/`created_at` in `drink_logs`.
- Integer column widths are not modelled. `BIGINT`/`INT` range errors on out-of-range discord ids or quantities are absent: ids and quantities are unbounded integers.
- OldBot.RegisterUser: `server_name`'s default `None` is not modelled (the name is always a string). Its only caller passes a guild name.
- The SQLite branch of `web.py` is not modelled beyond the weekly count. Without `detect_types` its `created_at` values are text, so its leaderboard filter compares text with the adapted parameter string, and `me`'s weekly count raises (see Findings).
- Real datetimes are not modelled. Timestamps are whole seconds in UTC; sub-second precision, the session time zone used by `date_trunc` and the naive/aware comparison in `me` are not modelled.
- InitDb.InitCatalog: the catalog records relation names and column names only. Column types, indices and the view's query text are not modelled. So PostgreSQL's type checks are not modelled either: that `users.id` is unique and type-compatible with `drinks.user_id` for the foreign key, and that a replaced view's columns keep their types.
- The code has no drink classification, bulk logging, quantity validation, top-10 truncation or name tie-break, so the model has none either.

## Findings

| source | as written | input that shows it | evidently intended | confidence | as-written member | corrected member |
|---|---|---|---|---|---|---|
| web.py:91 | on the SQLite backend, `sqlite3.connect(DB_FILE)` (web.py:26) is opened without `detect_types`, so `d[4]` is the stored text and `d[4] >= one_week_ago` compares text with a `datetime`, which raises `TypeError` | any user with at least one `drink_logs` row, e.g. `created_at` = `'2024-01-01 12:00:00'` | `weekly_count` is the number of fetched rows from the last seven days | medium; not executed | Web.WeeklyCountAsWritten, Web.SqliteWeeklyCountRaises | Web.WeeklyCountOnDatetimes, Web.Me |

=== FILE: base.dfy ===
/** Small shared vocabulary: optional values, Python truthiness of an optional
    id, and Python's `str()` of an integer (used for auto-generated user names). */
module Base {

  /** A value that SQL or Python may leave out (NULL / None). */
  datatype Option<+T> = None | Some(value: T) {
    function GetOr(default: T): T {
      match this
      case Some(v) => v
      case None => default
    }
  }

  /** The outcome of a statement the database may refuse. */
  datatype Result<+T, +E> = Ok(value: T) | Err(error: E)

  /** Python truthiness of an `int | None`: both `None` and `0` are false. */
  predicate Truthy(o: Option<int>) {
    o.Some? && o.value != 0
  }

  /** The quantity a drink gets when none is given: the handlers' `quantity=1`
      and the schema's `DEFAULT 1`. */
  const DefaultQuantity := 1

  /** Durations in seconds: a day, and the seven days of both
      `INTERVAL '7 days'` and `timedelta(days=7)`. */
  const Day := 86400
  const Week := 7 * Day

  function Min(a: int, b: int): int {
    if a <= b then a else b
  }

  // ---------------------------------------------------------------------------
  // Decimal rendering, as Python's str(int)
  // ---------------------------------------------------------------------------

  predicate IsDigit(c: char) {
    '0' <= c <= '9'
  }

  function DigitChar(d: nat): (c: char)
    requires d < 10
    ensures IsDigit(c)
  {
    "0123456789"[d]
  }

  function DigitValue(c: char): nat
    requires IsDigit(c)
  {
    (c as int - '0' as int) as nat
  }

  /** The decimal digits of `n`, most significant first, without leading zeros. */
  function NatToDecimal(n: nat): (s: string)
    ensures |s| >= 1
    ensures forall i :: 0 <= i < |s| ==> IsDigit(s[i])
    decreases n
  {
    if n < 10 then [DigitChar(n)] else NatToDecimal(n / 10) + [DigitChar(n % 10)]
  }

  /** Python's `str(n)` for an integer: a minus sign, then the digits of |n|. */
  function IntToDecimal(n: int): (s: string)
    ensures |s| >= 1
    ensures n >= 0 <==> IsDigit(s[0])
  {
    if n < 0 then "-" + NatToDecimal(-n) else NatToDecimal(n)
  }

  /** Reads a string of digits back as a natural number. */
  function DecimalToNat(s: string): nat
    requires forall i :: 0 <= i < |s| ==> IsDigit(s[i])
  {
    if |s| == 0 then 0 else DecimalToNat(s[..|s| - 1]) * 10 + DigitValue(s[|s| - 1])
  }

  /** Reads the output of `IntToDecimal` back; the partner of `IntToDecimal`. */
  function DecimalToInt(s: string): int
    requires |s| >= 1
    requires s[0] == '-' || IsDigit(s[0])
    requires forall i :: 1 <= i < |s| ==> IsDigit(s[i])
  {
    if s[0] == '-' then 0 - DecimalToNat(s[1..]) as int else DecimalToNat(s)
  }

  lemma {:induction false} NatToDecimalRoundTrip(n: nat)
    ensures DecimalToNat(NatToDecimal(n)) == n
    decreases n
  {
    var s := NatToDecimal(n);
    if n >= 10 {
      NatToDecimalRoundTrip(n / 10);
      assert s[..|s| - 1] == NatToDecimal(n / 10);
    }
  }

  /** Rendering an integer and reading it back gives the integer again. */
  lemma IntToDecimalRoundTrip(n: int)
    ensures DecimalToInt(IntToDecimal(n)) == n
  {
    var s := IntToDecimal(n);
    if n < 0 {
      NatToDecimalRoundTrip(-n);
      assert s[1..] == NatToDecimal(-n);
    } else {
      NatToDecimalRoundTrip(n);
    }
  }

  /** Distinct integers render to distinct strings. */
  lemma IntToDecimalInjective(a: int, b: int)
    requires a != b
    ensures IntToDecimal(a) != IntToDecimal(b)
  {
    IntToDecimalRoundTrip(a);
    IntToDecimalRoundTrip(b);
  }
}

=== FILE: commands.dfy ===
/** The slash-command handlers of the current bot revision, with Discord
    messaging reduced to the kind of reply sent. */
module Commands {
  import opened Base
  import opened Tables
  import Counting
  import Db

  /** The guild (Discord server) an interaction came from. */
  datatype Guild = Guild(id: int, name: string)

  /** What a handler reads from a Discord interaction: the invoking user's id
      and `str(user)`, and the guild. The commands are registered globally, so
      they can also be invoked in a direct message, where there is no guild. */
  datatype Interaction = Interaction(userId: int, userText: string, guild: Option<Guild>)

  /** The follow-up message a handler sends, by kind. `Failed` is the `except`
      branch's error message: reading `interaction.guild.id` without a guild
      raises, and the statement it feeds never runs. */
  datatype Reply = Registered | NotRegistered | Logged(quantity: int, drinkName: string) | Failed

  datatype Outcome = Outcome(db: Database, reply: Reply)

  /** `register_command`: hands the interaction's user and guild to
      `ensure_user_registered`; without a guild it fails before any write. */
  function RegisterCommand(db: Database, it: Interaction): (r: Outcome)
    ensures it.guild.None? ==> r.reply == Failed && r.db == db
    ensures it.guild.Some? ==> r.reply == Registered
    ensures it.guild.Some? ==> UserOf(r.db, it.userId).Some? && UserOf(r.db, it.userId).value.username == it.userText
    ensures UserOf(db, it.userId).Some? ==>
      UserOf(r.db, it.userId).Some? && UserOf(r.db, it.userId).value.id == UserOf(db, it.userId).value.id
    ensures forall d :: d != it.userId ==> UserOf(r.db, d) == UserOf(db, d)
    ensures it.guild.Some? ==>
      var g := it.guild.value;
      var uid := UserOf(r.db, it.userId).value.id;
      && ServerName(r.db.servers, g.id) ==
           (if HasServer(db, g.id) then ServerName(db.servers, g.id) else Some(g.name))
      && AddsServer(db, r.db, g.id, g.name)
      && MemberRow(uid, g.id) in r.db.members
      && AddsMember(db, r.db, MemberRow(uid, g.id))
      && (Valid(db) ==> Counting.Count(r.db.members, MemberRow(uid, g.id)) == 1)
      && r.db.nextUserId == db.nextUserId + 1
    ensures r.db.drinks == db.drinks
    ensures Valid(db) ==> Valid(r.db)
  {
    match it.guild
    case None => Outcome(db, Failed)
    case Some(g) =>
      var reg := Db.EnsureUserRegistered(db, it.userId, it.userText, g.id, g.name);
      Outcome(reg.db, Registered)
  }

  /** Running the register command twice changes nothing the first run did not. */
  lemma RegisterCommandIdempotent(db: Database, it: Interaction)
    ensures
      var first := RegisterCommand(db, it);
      SameRows(RegisterCommand(first.db, it).db, first.db)
  {
    match it.guild
    case None =>
    case Some(g) => Db.EnsureUserRegisteredIdempotent(db, it.userId, it.userText, g.id, g.name);
  }

  /** `drink_command`: refuse unless the user is registered (the id must be
      truthy); then, with a guild, insert it unless present, link the user
      unless linked, and log one drink. `quantity` defaults to 1. Without a
      guild the first guild read raises, after the lookup and before any write. */
  function DrinkCommand(db: Database, it: Interaction, drinkName: string, quantity: Option<int>, now: int): (r: Outcome)
    ensures r.reply == NotRegistered <==> !Truthy(Db.CheckUserRegistered(db, it.userId))
    ensures r.reply == Failed <==> Truthy(Db.CheckUserRegistered(db, it.userId)) && it.guild.None?
    ensures r.reply == NotRegistered || r.reply == Failed ==> r.db == db
    ensures r.reply != NotRegistered && r.reply != Failed ==>
      var g := it.guild.value;
      var u := UserOf(db, it.userId).value;
      && r.reply == Logged(quantity.GetOr(DefaultQuantity), drinkName)
      && r.db.users == db.users
      && ServerName(r.db.servers, g.id) ==
           (if HasServer(db, g.id) then ServerName(db.servers, g.id) else Some(g.name))
      && AddsServer(db, r.db, g.id, g.name)
      && MemberRow(u.id, g.id) in r.db.members
      && AddsMember(db, r.db, MemberRow(u.id, g.id))
      && (Valid(db) ==> Counting.Count(r.db.members, MemberRow(u.id, g.id)) == 1)
      && r.db.drinks == db.drinks + [DrinkRow(u.id, g.id, drinkName, quantity.GetOr(DefaultQuantity), now)]
    // no user is inserted, so the id sequence is not drawn from
    ensures r.db.nextUserId == db.nextUserId
    ensures Valid(db) ==> Valid(r.db)
  {
    var userId := Db.CheckUserRegistered(db, it.userId);
    if !Truthy(userId) then Outcome(db, NotRegistered)
    else match it.guild
    case None => Outcome(db, Failed)
    case Some(g) =>
      var q := quantity.GetOr(DefaultQuantity);
      var s := InsertServerIfAbsent(db, g.id, g.name);
      var m := InsertMemberIfAbsent(s, userId.value, g.id);
      var l := Db.LogDrink(m, userId.value, g.id, drinkName, Some(q), now);
      assert Valid(db) ==> Counting.Count(m.members, MemberRow(userId.value, g.id)) == 1 by {
        if Valid(db) {
          Counting.NoDupCountOne(m.members, MemberRow(userId.value, g.id));
        }
      }
      assert l.drinks == m.drinks + [l.drinks[|m.drinks|]];
      Outcome(l, Logged(q, drinkName))
  }

  /** In a valid database ids start at 1, so the truthiness test on the id is
      exactly the test "is the user registered". */
  lemma DrinkGateIsRegistration(db: Database, it: Interaction, drinkName: string, quantity: Option<int>, now: int)
    requires Valid(db)
    ensures DrinkCommand(db, it, drinkName, quantity, now).reply == NotRegistered <==> UserOf(db, it.userId).None?
  {
  }

  /** In a guild, after registering, the drink command is accepted and logs
      exactly one row. In a direct message both commands leave the database
      as it was, and the drink is refused as unregistered exactly when the
      user had never registered. */
  lemma RegisterThenDrink(db: Database, it: Interaction, drinkName: string, quantity: Option<int>, now: int)
    requires Valid(db)
    ensures
      var reg := RegisterCommand(db, it);
      var r := DrinkCommand(reg.db, it, drinkName, quantity, now);
      && (it.guild.Some? ==> r.reply == Logged(quantity.GetOr(DefaultQuantity), drinkName) && |r.db.drinks| == |db.drinks| + 1)
      && (it.guild.None? ==> r.db == db && (r.reply == NotRegistered <==> UserOf(db, it.userId).None?))
  {
  }
}

=== FILE: counting.dfy ===
/** Counting, grouping and ordering over sequences of rows: the pieces SQL's
    `COUNT(*) ... GROUP BY ... ORDER BY ... DESC` and Python's
    `collections.Counter` are built from. */
module Counting {
  import opened Base

  /** The number of occurrences of `x` in `s`. */
  function Count<T(==)>(s: seq<T>, x: T): nat {
    multiset(s)[x]
  }

  predicate NoDup<T(==)>(s: seq<T>) {
    forall i, j :: 0 <= i < j < |s| ==> s[i] != s[j]
  }

  /** In a sequence without duplicates every member occurs exactly once. */
  lemma {:induction false} NoDupCountOne<T>(s: seq<T>, x: T)
    requires NoDup(s)
    requires x in s
    ensures Count(s, x) == 1
  {
    if s[0] == x {
      assert s == [s[0]] + s[1..];
      assert x !in s[1..];
    } else {
      assert s == [s[0]] + s[1..];
      NoDupCountOne(s[1..], x);
    }
  }

  /** Two positions holding the same value make that value occur at least twice. */
  lemma RepeatCountsTwice<T>(s: seq<T>, i: nat, j: nat)
    requires i < j < |s|
    requires s[i] == s[j]
    ensures Count(s, s[i]) >= 2
  {
    assert s == s[..i] + [s[i]] + s[i + 1..j] + [s[j]] + s[j + 1..];
  }

  /** The distinct elements of `s`, each once, in order of first occurrence. */
  function Distinct<T(==)>(s: seq<T>): (r: seq<T>)
    ensures NoDup(r)
    ensures forall i :: 0 <= i < |r| ==> r[i] in s
    ensures forall i :: 0 <= i < |s| ==> s[i] in r
  {
    if |s| == 0 then []
    else
      var d := Distinct(s[..|s| - 1]);
      assert s == s[..|s| - 1] + [s[|s| - 1]];
      if s[|s| - 1] in d then d else d + [s[|s| - 1]]
  }

  /** The position of the first occurrence of `x` in `s`. */
  function FirstIndex<T(==)>(s: seq<T>, x: T): (i: nat)
    requires x in s
    ensures i < |s| && s[i] == x
    ensures x !in s[..i]
  {
    if s[0] == x then 0
    else
      var k := FirstIndex(s[1..], x);
      assert s[..k + 1] == [s[0]] + s[1..][..k];
      k + 1
  }

  /** The elements of `s` that satisfy `keep`, in their original order
      (SQL `WHERE`, Python's filtering comprehension). */
  function Filter<T>(s: seq<T>, keep: T -> bool): (r: seq<T>)
    ensures |r| <= |s|
    ensures forall i :: 0 <= i < |r| ==> keep(r[i]) && r[i] in s
    ensures forall i :: 0 <= i < |s| && keep(s[i]) ==> s[i] in r
  {
    if |s| == 0 then []
    else
      var rest := Filter(s[1..], keep);
      assert forall i :: 0 <= i < |rest| ==> rest[i] in s by {
        forall i | 0 <= i < |rest| ensures rest[i] in s {
          var k :| 0 <= k < |s[1..]| && s[1..][k] == rest[i];
          assert s[k + 1] == rest[i];
        }
      }
      assert forall i :: 1 <= i < |s| ==> s[i] == s[1..][i - 1];
      if keep(s[0]) then [s[0]] + rest else rest
  }

  lemma {:induction false} FilterAppend<T>(s: seq<T>, x: T, keep: T -> bool)
    ensures Filter(s + [x], keep) == Filter(s, keep) + (if keep(x) then [x] else [])
  {
    if |s| > 0 {
      assert (s + [x])[1..] == s[1..] + [x];
      FilterAppend(s[1..], x, keep);
    }
  }

  /** Nothing is kept exactly when no element passes the test. */
  lemma FilterEmpty<T>(s: seq<T>, keep: T -> bool)
    ensures |Filter(s, keep)| == 0 <==> forall i :: 0 <= i < |s| ==> !keep(s[i])
  {
    var r := Filter(s, keep);
    if |r| > 0 {
      var k :| 0 <= k < |s| && s[k] == r[0];
    }
  }

  /** No two elements of `s` share a `key` (a primary key or UNIQUE column). */
  predicate DistinctBy<T>(s: seq<T>, key: T -> int) {
    forall i, j :: 0 <= i < j < |s| ==> key(s[i]) != key(s[j])
  }

  /** Removing rows never breaks a uniqueness constraint. */
  lemma {:induction false} FilterKeepsDistinct<T>(s: seq<T>, keep: T -> bool, key: T -> int)
    requires DistinctBy(s, key)
    ensures DistinctBy(Filter(s, keep), key)
  {
    if |s| > 0 {
      FilterKeepsDistinct(s[1..], keep, key);
      var rest := Filter(s[1..], keep);
      forall k | 0 <= k < |rest| ensures key(s[0]) != key(rest[k]) {
        var m :| 0 <= m < |s[1..]| && s[1..][m] == rest[k];
        assert s[m + 1] == rest[k];
      }
    }
  }

  // ---------------------------------------------------------------------------
  // Ordering
  // ---------------------------------------------------------------------------

  /** `s` is in non-increasing order of `key` (SQL `ORDER BY key DESC`). */
  predicate SortedDescBy<T>(s: seq<T>, key: T -> int) {
    forall i, j :: 0 <= i < j < |s| ==> key(s[i]) >= key(s[j])
  }

  function InsertDescBy<T(==)>(x: T, s: seq<T>, key: T -> int): (r: seq<T>)
    requires SortedDescBy(s, key)
    ensures SortedDescBy(r, key)
    ensures multiset(r) == multiset(s) + multiset{x}
  {
    if |s| == 0 then [x]
    else if key(x) >= key(s[0]) then [x] + s
    else
      var rest := InsertDescBy(x, s[1..], key);
      assert s == [s[0]] + s[1..];
      HeadDominates(s[0], s[1..], x, rest, key);
      [s[0]] + rest
  }

  /** An element no smaller than every element of `s` and than `x` is no
      smaller than any element of a rearrangement of `s` plus `x`. */
  lemma HeadDominates<T>(a: T, s: seq<T>, x: T, rest: seq<T>, key: T -> int)
    requires forall k :: 0 <= k < |s| ==> key(a) >= key(s[k])
    requires key(a) >= key(x)
    requires multiset(rest) == multiset(s) + multiset{x}
    ensures forall k :: 0 <= k < |rest| ==> key(a) >= key(rest[k])
  {
    forall k | 0 <= k < |rest| ensures key(a) >= key(rest[k]) {
      assert rest[k] in multiset(rest);
      if rest[k] != x {
        assert rest[k] in multiset(s);
        var m :| 0 <= m < |s| && s[m] == rest[k];
      }
    }
  }

  /** Cutting a sorted sequence after `k` elements leaves out nothing that
      sorts before what was kept (SQL `ORDER BY ... DESC LIMIT k`). */
  lemma SortedPrefixDominates<T>(s: seq<T>, k: nat, key: T -> int)
    requires SortedDescBy(s, key)
    requires k <= |s|
    ensures multiset(s[..k]) <= multiset(s)
    ensures forall x :: x in multiset(s) - multiset(s[..k]) ==> forall i :: 0 <= i < k ==> key(x) <= key(s[i])
  {
    assert s == s[..k] + s[k..];
    assert multiset(s) - multiset(s[..k]) == multiset(s[k..]);
    forall x | x in multiset(s) - multiset(s[..k])
      ensures forall i :: 0 <= i < k ==> key(x) <= key(s[i])
    {
      var j :| 0 <= j < |s[k..]| && s[k..][j] == x;
      assert s[k + j] == x;
    }
  }

  /** A (stable) reordering of `s` by non-increasing `key`. */
  function SortDescBy<T(==)>(s: seq<T>, key: T -> int): (r: seq<T>)
    ensures SortedDescBy(r, key)
    ensures multiset(r) == multiset(s)
  {
    if |s| == 0 then []
    else
      assert s == [s[0]] + s[1..];
      InsertDescBy(s[0], SortDescBy(s[1..], key), key)
  }

  // ---------------------------------------------------------------------------
  // Grouped counts
  // ---------------------------------------------------------------------------

  /** One output row of a `GROUP BY key` with a `COUNT`. */
  datatype Entry<K> = Entry(key: K, count: nat)

  function EntryCount<K>(e: Entry<K>): int {
    e.count
  }

  function Keys<K>(t: seq<Entry<K>>): (ks: seq<K>)
    ensures |ks| == |t|
  {
    seq(|t|, i requires 0 <= i < |t| => t[i].key)
  }

  /** Pairs every key with the number of its occurrences in `occ`. */
  function CountEach<K(==)>(keys: seq<K>, occ: seq<K>): (t: seq<Entry<K>>)
    ensures Keys(t) == keys
  {
    seq(|keys|, i requires 0 <= i < |keys| => Entry(keys[i], Count(occ, keys[i])))
  }

  /** `out` is a valid answer to "one row per group key drawn from `keys`,
      holding the number of occurrences of that key in `occ`, ordered by that
      number, largest first". The order among equal counts is left open, as
      SQL leaves it. */
  predicate Ranks<K(==)>(out: seq<Entry<K>>, keys: seq<K>, occ: seq<K>) {
    && NoDup(Keys(out))
    && (forall i :: 0 <= i < |out| ==> out[i].key in keys)
    && (forall i :: 0 <= i < |keys| ==> keys[i] in Keys(out))
    && (forall i :: 0 <= i < |out| ==> out[i].count == Count(occ, out[i].key))
    && SortedDescBy(out, EntryCount)
  }

  /** A permutation of entries with distinct keys still has distinct keys. */
  lemma NoDupKeysPermutation<K>(a: seq<Entry<K>>, b: seq<Entry<K>>)
    requires multiset(a) == multiset(b)
    requires NoDup(Keys(a))
    ensures NoDup(Keys(b))
  {
    forall i, j | 0 <= i < j < |b| ensures Keys(b)[i] != Keys(b)[j] {
      if b[i].key == b[j].key {
        assert b[i] in multiset(a) && b[j] in multiset(a);
        var p :| 0 <= p < |a| && a[p] == b[i];
        var q :| 0 <= q < |a| && a[q] == b[j];
        assert Keys(a)[p] == Keys(a)[q];
        assert p == q;
        RepeatCountsTwice(b, i, j);
        assert NoDup(a) by {
          forall x, y | 0 <= x < y < |a| ensures a[x] != a[y] {
            assert Keys(a)[x] != Keys(a)[y];
          }
        }
        NoDupCountOne(a, a[p]);
        assert false;
      }
    }
  }

  /** The grouped, counted and ordered rows: one entry per distinct key. */
  function Rank<K(==)>(keys: seq<K>, occ: seq<K>): (r: seq<Entry<K>>)
    ensures Ranks(r, keys, occ)
  {
    var grouped := CountEach(Distinct(keys), occ);
    var r := SortDescBy(grouped, EntryCount);
    NoDupKeysPermutation(grouped, r);
    assert forall i :: 0 <= i < |r| ==> r[i].key in keys by {
      forall i | 0 <= i < |r| ensures r[i].key in keys {
        assert r[i] in multiset(grouped);
        var j :| 0 <= j < |grouped| && grouped[j] == r[i];
        assert Keys(grouped)[j] == r[i].key;
      }
    }
    assert forall i :: 0 <= i < |keys| ==> keys[i] in Keys(r) by {
      forall i | 0 <= i < |keys| ensures keys[i] in Keys(r) {
        var k := keys[i];
        var p :| 0 <= p < |grouped| && Keys(grouped)[p] == k;
        assert grouped[p] in multiset(r);
        var j :| 0 <= j < |r| && r[j] == grouped[p];
        assert Keys(r)[j] == k;
      }
    }
    assert forall i :: 0 <= i < |r| ==> r[i].count == Count(occ, r[i].key) by {
      forall i | 0 <= i < |r| ensures r[i].count == Count(occ, r[i].key) {
        assert r[i] in multiset(grouped);
      }
    }
    r
  }

  /** Two valid answers hold the same rows; they can differ only in the order
      of rows with equal counts. */
  lemma RanksUnique<K>(a: seq<Entry<K>>, b: seq<Entry<K>>, keys: seq<K>, occ: seq<K>)
    requires Ranks(a, keys, occ)
    requires Ranks(b, keys, occ)
    ensures multiset(a) == multiset(b)
  {
    forall e | e in a ensures e in b {
      var i :| 0 <= i < |a| && a[i] == e;
      assert Keys(a)[i] == e.key;
      var j :| 0 <= j < |b| && Keys(b)[j] == e.key;
      assert b[j] == e;
    }
    forall e | e in b ensures e in a {
      var j :| 0 <= j < |b| && b[j] == e;
      assert Keys(b)[j] == e.key;
      var i :| 0 <= i < |a| && Keys(a)[i] == e.key;
      assert a[i] == e;
    }
    DistinctKeysNoDup(a);
    DistinctKeysNoDup(b);
    forall e ensures multiset(a)[e] == multiset(b)[e] {
      if e in a {
        NoDupCountOne(a, e);
        NoDupCountOne(b, e);
      }
    }
  }

  lemma DistinctKeysNoDup<K>(t: seq<Entry<K>>)
    requires NoDup(Keys(t))
    ensures NoDup(t)
  {
    forall x, y | 0 <= x < y < |t| ensures t[x] != t[y] {
      assert Keys(t)[x] != Keys(t)[y];
    }
  }

  // ---------------------------------------------------------------------------
  // Totals
  // ---------------------------------------------------------------------------

  function Sum<K>(t: seq<Entry<K>>): int {
    if |t| == 0 then 0 else t[0].count + Sum(t[1..])
  }

  lemma {:induction false} SumInsert<K>(x: Entry<K>, s: seq<Entry<K>>)
    requires SortedDescBy(s, EntryCount)
    ensures Sum(InsertDescBy(x, s, EntryCount)) == x.count + Sum(s)
  {
    if |s| > 0 && EntryCount(x) < EntryCount(s[0]) {
      SumInsert(x, s[1..]);
      var r := InsertDescBy(x, s, EntryCount);
      assert r[1..] == InsertDescBy(x, s[1..], EntryCount);
    } else if |s| > 0 {
      assert ([x] + s)[1..] == s;
    }
  }

  lemma {:induction false} SumSort<K>(t: seq<Entry<K>>)
    ensures Sum(SortDescBy(t, EntryCount)) == Sum(t)
  {
    if |t| > 0 {
      SumSort(t[1..]);
      SumInsert(t[0], SortDescBy(t[1..], EntryCount));
    }
  }

  /** The sum over `keys` of the occurrences of each key in `occ`. */
  function SumCounts<K(==)>(keys: seq<K>, occ: seq<K>): nat {
    if |keys| == 0 then 0 else Count(occ, keys[0]) + SumCounts(keys[1..], occ)
  }

  lemma {:induction false} SumCountEach<K>(keys: seq<K>, occ: seq<K>)
    ensures Sum(CountEach(keys, occ)) == SumCounts(keys, occ)
  {
    if |keys| > 0 {
      SumCountEach(keys[1..], occ);
      assert CountEach(keys, occ)[1..] == CountEach(keys[1..], occ);
    }
  }

  lemma {:induction false} SumCountsAppend<K>(keys: seq<K>, occ: seq<K>, x: K)
    ensures SumCounts(keys, occ + [x]) == SumCounts(keys, occ) + Count(keys, x)
  {
    if |keys| > 0 {
      SumCountsAppend(keys[1..], occ, x);
      assert keys == [keys[0]] + keys[1..];
    }
  }

  /** When every occurrence has exactly one key, the counts add up to the
      number of occurrences. */
  lemma {:induction false} SumCountsTotal<K>(keys: seq<K>, occ: seq<K>)
    requires NoDup(keys)
    requires forall x :: x in occ ==> x in keys
    ensures SumCounts(keys, occ) == |occ|
  {
    if |occ| == 0 {
      ZeroCounts(keys, occ);
    } else {
      var init := occ[..|occ| - 1];
      var x := occ[|occ| - 1];
      assert occ == init + [x];
      SumCountsTotal(keys, init);
      SumCountsAppend(keys, init, x);
      NoDupCountOne(keys, x);
    }
  }

  lemma {:induction false} ZeroCounts<K>(keys: seq<K>, occ: seq<K>)
    requires |occ| == 0
    ensures SumCounts(keys, occ) == 0
  {
    if |keys| > 0 {
      ZeroCounts(keys[1..], occ);
    }
  }

  /** Every occurrence is counted in exactly one output row. */
  lemma RankTotal<K>(keys: seq<K>, occ: seq<K>)
    requires forall x :: x in occ ==> x in keys
    ensures Sum(Rank(keys, occ)) == |occ|
  {
    var d := Distinct(keys);
    SumSort(CountEach(d, occ));
    SumCountEach(d, occ);
    SumCountsTotal(d, occ);
  }

  // ---------------------------------------------------------------------------
  // Most common element
  // ---------------------------------------------------------------------------

  /** `c` occurs in `s` as often as any element, and every element first
      seen before `c` occurs strictly less often. */
  predicate IsMostCommon<T(==)>(s: seq<T>, c: T) {
    && c in s
    && (forall i :: 0 <= i < |s| ==> Count(s, s[i]) <= Count(s, c))
    && (forall j :: 0 <= j < FirstIndex(s, c) ==> Count(s, s[j]) < Count(s, c))
  }

  /** `Counter(s).most_common(1)`: an element of largest count, the earliest
      one to occur among those tied; `None` for an empty `s`. */
  method MostCommon<T(==)>(s: seq<T>) returns (r: Option<T>)
    ensures r.None? <==> |s| == 0
    ensures r.Some? ==> IsMostCommon(s, r.value)
  {
    r := None;
    var i := 0;
    while i < |s|
      invariant 0 <= i <= |s|
      invariant r.None? <==> i == 0
      invariant r.Some? ==> r.value in s && FirstIndex(s, r.value) < i
      invariant r.Some? ==> forall j :: 0 <= j < i ==> Count(s, s[j]) <= Count(s, r.value)
      invariant r.Some? ==> forall j :: 0 <= j < FirstIndex(s, r.value) ==> Count(s, s[j]) < Count(s, r.value)
    {
      if r.None? || Count(s, s[i]) > Count(s, r.value) {
        assert s[i] !in s[..i];
        assert FirstIndex(s, s[i]) == i;
        r := Some(s[i]);
      }
      i := i + 1;
    }
  }

  /** The most common element is unique: `IsMostCommon` pins it down. */
  lemma MostCommonUnique<T>(s: seq<T>, a: T, b: T)
    requires IsMostCommon(s, a) && IsMostCommon(s, b)
    ensures a == b
  {
    var fa := FirstIndex(s, a);
    var fb := FirstIndex(s, b);
    assert fa == fb;
  }
}

=== FILE: db.dfy ===
/** The data-access functions of the current bot revision: registration,
    the registration check, and drink logging, each as a transformer of the
    database value. */
module Db {
  import opened Base
  import opened Tables
  import Counting

  /** `ensure_user_registered`: upsert the user by discord id, insert the
      server unless present, link the two unless linked; returns the user id. */
  function EnsureUserRegistered(db: Database, discordId: int, username: string, serverId: int, serverName: string): (r: Returning)
    // the user row: present afterwards, carrying the new username
    ensures UserOf(r.db, discordId) == Some(UserRow(r.id, discordId, username))
    // an existing user keeps its id; a new one gets an id no user had
    ensures UserOf(db, discordId).Some? ==> r.id == UserOf(db, discordId).value.id && |r.db.users| == |db.users|
    ensures UserOf(db, discordId).None? ==> r.db.users == db.users + [UserRow(r.id, discordId, username)]
    ensures Valid(db) && UserOf(db, discordId).None? ==> !HasUserId(db, r.id)
    // nobody else's row changes
    ensures forall d :: d != discordId ==> UserOf(r.db, d) == UserOf(db, d)
    // the server exists afterwards and an existing one keeps its name
    ensures ServerName(r.db.servers, serverId) ==
      (if HasServer(db, serverId) then ServerName(db.servers, serverId) else Some(serverName))
    // the membership exists afterwards, exactly once
    ensures MemberRow(r.id, serverId) in r.db.members
    ensures Valid(db) ==> Counting.Count(r.db.members, MemberRow(r.id, serverId)) == 1
    // nothing else is written: no other server, no other membership
    ensures AddsServer(db, r.db, serverId, serverName)
    ensures AddsMember(db, r.db, MemberRow(r.id, serverId))
    ensures r.db.drinks == db.drinks
    // the upsert draws one value from the id sequence, whether or not it conflicts
    ensures r.db.nextUserId == db.nextUserId + 1
    ensures Valid(db) ==> Valid(r.db)
  {
    var u := UpsertUser(db, discordId, username);
    var s := InsertServerIfAbsent(u.db, serverId, serverName);
    var m := InsertMemberIfAbsent(s, u.id, serverId);
    assert Valid(db) ==> Counting.Count(m.members, MemberRow(u.id, serverId)) == 1 by {
      if Valid(db) {
        Counting.NoDupCountOne(m.members, MemberRow(u.id, serverId));
      }
    }
    Returning(m, u.id)
  }

  /** Registering again with the same arguments returns the same id and
      leaves every table as the first call left it. */
  lemma EnsureUserRegisteredIdempotent(db: Database, discordId: int, username: string, serverId: int, serverName: string)
    ensures
      var first := EnsureUserRegistered(db, discordId, username, serverId, serverName);
      var second := EnsureUserRegistered(first.db, discordId, username, serverId, serverName);
      second.id == first.id && SameRows(second.db, first.db)
  {
    var first := EnsureUserRegistered(db, discordId, username, serverId, serverName);
    var i := FindUser(first.db.users, discordId).value;
    assert first.db.users[i] == UserRow(first.id, discordId, username);
    assert first.db.users[i := first.db.users[i].(username := username)] == first.db.users;
  }

  /** `check_user_registered`: the user's id when the discord id is known,
      otherwise `None`. It reads and never writes. */
  function CheckUserRegistered(db: Database, discordId: int): (r: Option<int>)
    ensures r.None? <==> forall i :: 0 <= i < |db.users| ==> db.users[i].discordId != discordId
    ensures r.Some? ==> exists i :: 0 <= i < |db.users| && db.users[i].discordId == discordId && db.users[i].id == r.value
    ensures Valid(db) && r.Some? ==> r.value >= 1
  {
    SelectUserId(db, discordId)
  }

  /** The id the registration check returns is the one registration returned. */
  lemma CheckAfterEnsure(db: Database, discordId: int, username: string, serverId: int, serverName: string)
    ensures
      var r := EnsureUserRegistered(db, discordId, username, serverId, serverName);
      CheckUserRegistered(r.db, discordId) == Some(r.id)
  {
  }

  /** `log_drink`: append one drinks row; `quantity` defaults to 1. */
  function LogDrink(db: Database, userId: int, serverId: int, drinkName: string, quantity: Option<int>, now: int): (r: Database)
    ensures |r.drinks| == |db.drinks| + 1
    ensures r.drinks[..|db.drinks|] == db.drinks
    ensures r.drinks[|db.drinks|].userId == userId && r.drinks[|db.drinks|].serverId == serverId
    ensures r.drinks[|db.drinks|].drinkName == drinkName && r.drinks[|db.drinks|].createdAt == now
    ensures quantity.Some? ==> r.drinks[|db.drinks|].quantity == quantity.value
    ensures quantity.None? ==> r.drinks[|db.drinks|].quantity == DefaultQuantity
    ensures r.users == db.users && r.servers == db.servers && r.members == db.members
    ensures r.nextUserId == db.nextUserId
    ensures Valid(db) ==> Valid(r)
  {
    InsertDrink(db, userId, serverId, drinkName, quantity.GetOr(DefaultQuantity), now)
  }
}

=== FILE: initdb.dfy ===
/** The schema script: its DDL as a transformer of the catalog, the
    constraints of its two tables as guarded row operations, and its
    `weekly_leaderboard` view as a function of the rows and the current week. */
module InitDb {
  import opened Base
  import opened Counting

  // ---------------------------------------------------------------------------
  // DDL
  // ---------------------------------------------------------------------------

  /** A named relation in the catalog, described by its column names. */
  datatype Relation = Table(columns: seq<string>) | View(columns: seq<string>)

  type Catalog = map<string, Relation>

  const UsersTable := Table(["id", "discord_id", "username", "created_at"])
  const DrinksTable := Table(["id", "user_id", "drink_name", "quantity", "created_at"])
  const LeaderboardView := View(["username", "drinks_this_week"])

  datatype DdlError =
    | NotAView(name: string)                      // OR REPLACE VIEW over a table
    | ColumnsChanged(name: string)                // OR REPLACE VIEW that drops or renames columns
    | NotATable(name: string)                     // REFERENCES a relation that is not a table
    | MissingColumn(name: string, column: string) // REFERENCES a column the table lacks
    | UnresolvedQuery(name: string)               // the view's query reads a column that does not exist

  /** `rel` has every column of `cols`. */
  predicate Provides(rel: Relation, cols: seq<string>) {
    forall i :: 0 <= i < |cols| ==> cols[i] in rel.columns
  }

  /** The relation `name` denotes once `CREATE TABLE IF NOT EXISTS name` has
      run: the existing one if there is one, else the new table. */
  function Denoted(c: Catalog, name: string, table: Relation): Relation {
    if name in c then c[name] else table
  }

  /** `user_id INT REFERENCES users(id)` is only checked when `drinks` is
      created, and then needs `users` to be a table with an `id` column. */
  predicate ForeignKeyResolves(c: Catalog) {
    var users := Denoted(c, "users", UsersTable);
    "drinks" in c || (users.Table? && "id" in users.columns)
  }

  /** The view's query reads `u.id` and `u.username` of `users`, and `d.id`,
      `d.user_id` and `d.created_at` of `drinks`. */
  predicate ViewQueryResolves(c: Catalog) {
    && Provides(Denoted(c, "users", UsersTable), ["id", "username"])
    && Provides(Denoted(c, "drinks", DrinksTable), ["id", "user_id", "created_at"])
  }

  /** `CREATE OR REPLACE VIEW weekly_leaderboard` may replace what is there. */
  predicate ViewReplaceable(c: Catalog) {
    "weekly_leaderboard" !in c
    || (c["weekly_leaderboard"].View? && c["weekly_leaderboard"].columns <= LeaderboardView.columns)
  }

  /** `CREATE TABLE IF NOT EXISTS`: nothing happens when any relation of that
      name exists, whatever its definition. */
  function CreateTableIfNotExists(c: Catalog, name: string, table: Relation): (r: Catalog)
    ensures name in r
    ensures name in c ==> r == c
    ensures name !in c ==> r == c[name := table]
  {
    if name in c then c else c[name := table]
  }

  /** `CREATE OR REPLACE VIEW`: PostgreSQL replaces an existing view only if
      the new column list extends the old one. */
  function CreateOrReplaceView(c: Catalog, name: string, view: Relation): (r: Result<Catalog, DdlError>)
    requires view.View?
    ensures r.Ok? ==> r.value == c[name := view]
    ensures r.Err? <==> name in c && (c[name].Table? || !(c[name].columns <= view.columns))
  {
    if name !in c then Ok(c[name := view])
    else if c[name].Table? then Err(NotAView(name))
    else if c[name].columns <= view.columns then Ok(c[name := view])
    else Err(ColumnsChanged(name))
  }

  /** `CREATE TABLE IF NOT EXISTS drinks (...)`: a no-op when `drinks`
      exists; otherwise its foreign key must name a table with an `id` column. */
  function CreateDrinksTable(c: Catalog): (r: Result<Catalog, DdlError>)
    requires "users" in c
    ensures r.Err? <==> "drinks" !in c && !(c["users"].Table? && "id" in c["users"].columns)
    ensures r.Ok? ==> r.value == CreateTableIfNotExists(c, "drinks", DrinksTable)
  {
    if "drinks" in c then Ok(c)
    else if !c["users"].Table? then Err(NotATable("users"))
    else if "id" !in c["users"].columns then Err(MissingColumn("users", "id"))
    else Ok(c["drinks" := DrinksTable])
  }

  /** The script's three statements, in order. The view's query is resolved
      before PostgreSQL looks at any existing view of that name. */
  function InitSql(c: Catalog): (r: Result<Catalog, DdlError>)
    ensures r.Ok? <==> ForeignKeyResolves(c) && ViewQueryResolves(c) && ViewReplaceable(c)
    ensures r.Ok? ==> r.value.Keys == c.Keys + {"users", "drinks", "weekly_leaderboard"}
    // a relation the script creates gets the script's definition; an existing
    // table is kept as it was; the view is always (re)defined
    ensures r.Ok? ==>
      && r.value["users"] == Denoted(c, "users", UsersTable)
      && r.value["drinks"] == Denoted(c, "drinks", DrinksTable)
      && r.value["weekly_leaderboard"] == LeaderboardView
    ensures r.Ok? ==> forall n :: n in c && n != "weekly_leaderboard" ==> r.value[n] == c[n]
  {
    var c1 := CreateTableIfNotExists(c, "users", UsersTable);
    match CreateDrinksTable(c1)
    case Err(e) => Err(e)
    case Ok(c2) =>
      assert c2["users"] == Denoted(c, "users", UsersTable);
      assert c2["drinks"] == Denoted(c, "drinks", DrinksTable);
      if !(Provides(c2["users"], ["id", "username"]) && Provides(c2["drinks"], ["id", "user_id", "created_at"])) then
        Err(UnresolvedQuery("weekly_leaderboard"))
      else CreateOrReplaceView(c2, "weekly_leaderboard", LeaderboardView)
  }

  /** `init_db`: the script runs in one transaction; a failure is reported and
      rolled back, leaving the catalog as it was. */
  function InitCatalog(c: Catalog): (r: Catalog)
    ensures c.Keys <= r.Keys
    ensures "users" in c ==> r["users"] == c["users"]
    ensures "drinks" in c ==> r["drinks"] == c["drinks"]
    ensures forall n :: n in c && n != "weekly_leaderboard" ==> r[n] == c[n]
    ensures r != c ==> r.Keys == c.Keys + {"users", "drinks", "weekly_leaderboard"}
    ensures r != c ==> r["weekly_leaderboard"] == LeaderboardView
    // the script commits exactly when its foreign key, the view's query and
    // the view replacement all resolve; otherwise it rolls back
    ensures ForeignKeyResolves(c) && ViewQueryResolves(c) && ViewReplaceable(c) ==>
      && r.Keys == c.Keys + {"users", "drinks", "weekly_leaderboard"}
      && r["users"] == Denoted(c, "users", UsersTable)
      && r["drinks"] == Denoted(c, "drinks", DrinksTable)
      && r["weekly_leaderboard"] == LeaderboardView
    ensures !(ForeignKeyResolves(c) && ViewQueryResolves(c) && ViewReplaceable(c)) ==> r == c
  {
    match InitSql(c)
    case Ok(c') => c'
    case Err(_) => c
  }

  /** On an empty database the script creates exactly its three relations. */
  lemma InitOnEmpty()
    ensures InitCatalog(map[]) == map["users" := UsersTable, "drinks" := DrinksTable, "weekly_leaderboard" := LeaderboardView]
  {
  }

  /** A pre-existing `users` that is a view cannot be referenced by a
      `drinks` the script creates, and a `users` without `username` cannot
      feed the view: in both cases the script rolls back. The foreign key is
      only checked when `drinks` is created, so a `users` view next to an
      existing `drinks` does not stop the script. */
  lemma InitRollsBack(c: Catalog)
    ensures "users" in c && "drinks" !in c && c["users"].View? ==> InitCatalog(c) == c
    ensures "users" in c && "username" !in c["users"].columns ==> InitCatalog(c) == c
    ensures "users" in c && c["users"].View? && "drinks" in c && ViewQueryResolves(c) && ViewReplaceable(c) ==>
      InitCatalog(c)["weekly_leaderboard"] == LeaderboardView
  {
    if "users" in c && "username" !in c["users"].columns {
      var read := ["id", "username"];
      assert read[1] !in Denoted(c, "users", UsersTable).columns;
    }
  }

  /** Running the script a second time changes nothing. */
  lemma InitIdempotent(c: Catalog)
    ensures InitCatalog(InitCatalog(c)) == InitCatalog(c)
  {
    match InitSql(c)
    case Ok(c') =>
      assert c'["weekly_leaderboard"] == LeaderboardView;
      assert c'[("weekly_leaderboard") := LeaderboardView] == c';
    case Err(_) =>
  }

  // ---------------------------------------------------------------------------
  // Rows and constraints
  // ---------------------------------------------------------------------------

  /** A row of `users`: `id SERIAL PRIMARY KEY`, `discord_id BIGINT UNIQUE NOT
      NULL`, `username TEXT NOT NULL`, `created_at DEFAULT NOW()`. */
  datatype User = User(id: int, discordId: int, username: string, createdAt: int)

  /** A row of `drinks`: `user_id` may be NULL, and otherwise references
      `users(id)` with `ON DELETE CASCADE`. */
  datatype Drink = Drink(id: int, userId: Option<int>, drinkName: string, quantity: int, createdAt: int)

  datatype Store = Store(users: seq<User>, drinks: seq<Drink>, nextUserId: int, nextDrinkId: int)

  datatype DataError =
    | DuplicateDiscordId  // violates UNIQUE (discord_id)
    | UnknownUser         // violates the foreign key on drinks.user_id

  predicate HasUser(users: seq<User>, id: int) {
    exists i :: 0 <= i < |users| && users[i].id == id
  }

  predicate HasDiscordId(users: seq<User>, discordId: int) {
    exists i :: 0 <= i < |users| && users[i].discordId == discordId
  }

  function UserId(u: User): int { u.id }
  function DiscordIdOf(u: User): int { u.discordId }
  function DrinkId(d: Drink): int { d.id }

  predicate UniqueIds(users: seq<User>) {
    DistinctBy(users, UserId)
  }

  /** The constraints of the two tables: primary keys, `UNIQUE (discord_id)`,
      ids drawn from their sequences, and the foreign key. */
  predicate Valid(s: Store) {
    && UniqueIds(s.users)
    && DistinctBy(s.users, DiscordIdOf)
    && (forall i :: 0 <= i < |s.users| ==> s.users[i].id < s.nextUserId)
    && DistinctBy(s.drinks, DrinkId)
    && (forall i :: 0 <= i < |s.drinks| ==> s.drinks[i].id < s.nextDrinkId)
    && (forall i :: 0 <= i < |s.drinks| && s.drinks[i].userId.Some? ==> HasUser(s.users, s.drinks[i].userId.value))
  }

  /** An insert's effect on the store and the constraint that refused it,
      if one did. A refused row is not written, but the value its SERIAL
      default drew from the sequence stays drawn: `nextval` runs before the
      constraint is checked. */
  datatype Inserted = Inserted(store: Store, refused: Option<DataError>)

  /** `INSERT INTO users (discord_id, username)`: refused when the discord id
      is taken. */
  function InsertUser(s: Store, discordId: int, username: string, now: int): (r: Inserted)
    ensures r.refused.Some? <==> HasDiscordId(s.users, discordId)
    ensures r.refused.Some? ==> r.refused.value == DuplicateDiscordId && r.store.users == s.users
    ensures r.refused.None? ==> r.store.users == s.users + [User(s.nextUserId, discordId, username, now)]
    // on both paths the id sequence advances and nothing else changes
    ensures r.store.nextUserId == s.nextUserId + 1
    ensures r.store.drinks == s.drinks && r.store.nextDrinkId == s.nextDrinkId
    ensures Valid(s) ==> Valid(r.store)
  {
    var drawn := s.(nextUserId := s.nextUserId + 1);
    if HasDiscordId(s.users, discordId) then Inserted(drawn, Some(DuplicateDiscordId))
    else
      var r := drawn.(users := s.users + [User(s.nextUserId, discordId, username, now)]);
      assert forall id :: HasUser(s.users, id) ==> HasUser(r.users, id) by {
        forall id | HasUser(s.users, id) ensures HasUser(r.users, id) {
          var i :| 0 <= i < |s.users| && s.users[i].id == id;
          assert r.users[i].id == id;
        }
      }
      Inserted(r, None)
  }

  /** `INSERT INTO drinks (user_id, drink_name[, quantity])`: refused when
      `user_id` names no user; an omitted quantity takes the default 1. */
  function InsertDrink(s: Store, userId: Option<int>, drinkName: string, quantity: Option<int>, now: int): (r: Inserted)
    ensures r.refused.Some? <==> userId.Some? && !HasUser(s.users, userId.value)
    ensures r.refused.Some? ==> r.refused.value == UnknownUser && r.store.drinks == s.drinks
    ensures r.refused.None? ==> |r.store.drinks| == |s.drinks| + 1 && r.store.drinks[..|s.drinks|] == s.drinks
    ensures r.refused.None? ==> var d := r.store.drinks[|s.drinks|];
      d.id == s.nextDrinkId && d.userId == userId && d.drinkName == drinkName && d.createdAt == now
      && d.quantity == (if quantity.Some? then quantity.value else DefaultQuantity)
    // on both paths the drink id sequence advances and nothing else changes
    ensures r.store.nextDrinkId == s.nextDrinkId + 1
    ensures r.store.users == s.users && r.store.nextUserId == s.nextUserId
    ensures Valid(s) ==> Valid(r.store)
  {
    var drawn := s.(nextDrinkId := s.nextDrinkId + 1);
    if userId.Some? && !HasUser(s.users, userId.value) then Inserted(drawn, Some(UnknownUser))
    else
      var d := Drink(s.nextDrinkId, userId, drinkName, quantity.GetOr(DefaultQuantity), now);
      var r := drawn.(drinks := s.drinks + [d]);
      assert r.drinks[..|s.drinks|] == s.drinks;
      Inserted(r, None)
  }

  /** `DELETE FROM users WHERE id = id`, with `ON DELETE CASCADE` removing
      exactly that user's drinks. */
  function DeleteUser(s: Store, id: int): (r: Store)
    ensures forall u :: u in r.users <==> u in s.users && u.id != id
    ensures forall d :: d in r.drinks <==> d in s.drinks && d.userId != Some(id)
    // a DELETE, cascading or not, leaves both SERIAL sequences alone
    ensures r.nextUserId == s.nextUserId && r.nextDrinkId == s.nextDrinkId
    ensures Valid(s) ==> Valid(r)
  {
    var r := s.(users := Filter(s.users, (u: User) => u.id != id),
                drinks := Filter(s.drinks, (d: Drink) => d.userId != Some(id)));
    assert Valid(s) ==> Valid(r) by {
      if Valid(s) {
        FilterKeepsDistinct(s.users, (u: User) => u.id != id, UserId);
        FilterKeepsDistinct(s.users, (u: User) => u.id != id, DiscordIdOf);
        FilterKeepsDistinct(s.drinks, (d: Drink) => d.userId != Some(id), DrinkId);
        forall i | 0 <= i < |r.drinks| && r.drinks[i].userId.Some?
          ensures HasUser(r.users, r.drinks[i].userId.value)
        {
          var d := r.drinks[i];
          var k :| 0 <= k < |s.drinks| && s.drinks[k] == d;
          var j :| 0 <= j < |s.users| && s.users[j].id == d.userId.value;
          assert s.users[j] in r.users;
        }
      }
    }
    r
  }

  // ---------------------------------------------------------------------------
  // The weekly_leaderboard view
  // ---------------------------------------------------------------------------

  /** 1970-01-05 00:00 UTC, the first Monday after the epoch (a Thursday). */
  const FirstMonday := 4 * Day

  /** `date_trunc('week', t)`: the Monday 00:00 at or before `t`. */
  function WeekStart(t: int): (r: int)
    ensures r <= t < r + Week
    ensures (r - FirstMonday) % Week == 0
  {
    t - (t - FirstMonday) % Week
  }

  /** There is only one Monday midnight in any seven-day span. */
  lemma WeekStartUnique(t: int, m: int)
    requires (m - FirstMonday) % Week == 0
    requires m <= t < m + Week
    ensures m == WeekStart(t)
  {
    var w := WeekStart(t);
    var a := (m - FirstMonday) / Week;
    var b := (w - FirstMonday) / Week;
    assert m == FirstMonday + a * Week;
    assert w == FirstMonday + b * Week;
    assert m - w == (a - b) * Week;
  }

  /** The number of drinks of user `uid` from `weekStart` on. */
  function RecentDrinksOf(drinks: seq<Drink>, uid: int, weekStart: int): nat {
    if |drinks| == 0 then 0
    else
      var d := drinks[|drinks| - 1];
      RecentDrinksOf(drinks[..|drinks| - 1], uid, weekStart) + (if d.userId == Some(uid) && d.createdAt >= weekStart then 1 else 0)
  }

  function Repeat<T>(x: T, n: nat): (r: seq<T>)
    ensures |r| == n
    ensures forall i :: 0 <= i < n ==> r[i] == x
  {
    seq(n, _ => x)
  }

  /** One username per row of `users LEFT JOIN drinks ON u.id = d.user_id AND
      d.created_at >= weekStart` that has a matching drink. */
  function JoinedNames(users: seq<User>, drinks: seq<Drink>, weekStart: int): seq<string> {
    if |users| == 0 then []
    else Repeat(users[0].username, RecentDrinksOf(drinks, users[0].id, weekStart)) + JoinedNames(users[1..], drinks, weekStart)
  }

  function Usernames(users: seq<User>): (r: seq<string>)
    ensures |r| == |users|
    ensures forall i :: 0 <= i < |users| ==> r[i] == users[i].username
  {
    seq(|users|, i requires 0 <= i < |users| => users[i].username)
  }

  /** The view's rows: one per distinct username of `users`, with 0 for a name
      with no drink this week, ordered by the count, largest first. */
  function WeeklyLeaderboard(users: seq<User>, drinks: seq<Drink>, weekStart: int): (r: seq<Entry<string>>)
    ensures Ranks(r, Usernames(users), JoinedNames(users, drinks, weekStart))
  {
    Rank(Usernames(users), JoinedNames(users, drinks, weekStart))
  }

  /** The view as read at instant `now`. */
  function WeeklyLeaderboardAt(s: Store, now: int): seq<Entry<string>> {
    WeeklyLeaderboard(s.users, s.drinks, WeekStart(now))
  }

  /** The username owning a drink: that of the user whose id is its `user_id`. */
  function OwnerName(users: seq<User>, d: Drink): Option<string> {
    if d.userId.None? || |users| == 0 then None
    else if users[0].id == d.userId.value then Some(users[0].username)
    else OwnerName(users[1..], d)
  }

  /** Counted the other way round: the drinks from `weekStart` on whose owner
      is called `name`. */
  function RecentDrinksNamed(users: seq<User>, drinks: seq<Drink>, weekStart: int, name: string): nat {
    if |drinks| == 0 then 0
    else
      var d := drinks[|drinks| - 1];
      RecentDrinksNamed(users, drinks[..|drinks| - 1], weekStart, name)
        + (if d.createdAt >= weekStart && OwnerName(users, d) == Some(name) then 1 else 0)
  }

  lemma {:induction false} CountRepeat(x: string, n: nat, name: string)
    ensures Count(Repeat(x, n), name) == if x == name then n else 0
  {
    if n > 0 {
      assert Repeat(x, n) == Repeat(x, n - 1) + [x];
      CountRepeat(x, n - 1, name);
    } else {
      assert Repeat(x, n) == [];
    }
  }

  /** The joined count for `name` after appending one drink grows by one
      exactly when that drink is recent and owned by a user called `name`. */
  lemma {:induction false} JoinedNamesAppend(users: seq<User>, drinks: seq<Drink>, d: Drink, weekStart: int, name: string)
    requires UniqueIds(users)
    ensures Count(JoinedNames(users, drinks + [d], weekStart), name) ==
      Count(JoinedNames(users, drinks, weekStart), name)
        + (if d.createdAt >= weekStart && OwnerName(users, d) == Some(name) then 1 else 0)
  {
    if |users| > 0 {
      var u := users[0];
      assert (drinks + [d])[..|drinks|] == drinks;
      JoinedNamesAppend(users[1..], drinks, d, weekStart, name);
      CountRepeat(u.username, RecentDrinksOf(drinks + [d], u.id, weekStart), name);
      CountRepeat(u.username, RecentDrinksOf(drinks, u.id, weekStart), name);
      if d.userId == Some(u.id) {
        NoOtherOwner(users[1..], d, u.id);
      }
    }
  }

  /** With unique ids, a drink owned by one user matches no other user. */
  lemma {:induction false} NoOtherOwner(users: seq<User>, d: Drink, id: int)
    requires d.userId == Some(id)
    requires forall i :: 0 <= i < |users| ==> users[i].id != id
    ensures OwnerName(users, d) == None
  {
    if |users| > 0 {
      NoOtherOwner(users[1..], d, id);
    }
  }

  lemma {:induction false} JoinedNamesNoDrinks(users: seq<User>, weekStart: int)
    ensures JoinedNames(users, [], weekStart) == []
  {
    if |users| > 0 {
      JoinedNamesNoDrinks(users[1..], weekStart);
    }
  }

  /** The view's count for a username is the number of this week's drinks
      owned by a user of that name. */
  lemma {:induction false} ViewCountsOwnedDrinks(users: seq<User>, drinks: seq<Drink>, weekStart: int, name: string)
    requires UniqueIds(users)
    ensures Count(JoinedNames(users, drinks, weekStart), name) == RecentDrinksNamed(users, drinks, weekStart, name)
  {
    if |drinks| == 0 {
      JoinedNamesNoDrinks(users, weekStart);
    } else {
      var init := drinks[..|drinks| - 1];
      assert drinks == init + [drinks[|drinks| - 1]];
      ViewCountsOwnedDrinks(users, init, weekStart, name);
      JoinedNamesAppend(users, init, drinks[|drinks| - 1], weekStart, name);
    }
  }

  /** What the view promises, in terms of the stored rows: each username once,
      every username present (0 when it has no drinks this week), counts equal
      to this week's drinks of the users carrying that name, largest first. */
  lemma WeeklyLeaderboardMeaning(s: Store, now: int)
    requires Valid(s)
    ensures var view := WeeklyLeaderboardAt(s, now);
      && NoDup(Keys(view))
      && (forall i :: 0 <= i < |s.users| ==> s.users[i].username in Keys(view))
      && (forall i :: 0 <= i < |view| ==> view[i].key in Usernames(s.users))
      && (forall i :: 0 <= i < |view| ==>
            view[i].count == RecentDrinksNamed(s.users, s.drinks, WeekStart(now), view[i].key))
      && SortedDescBy(view, EntryCount)
  {
    var view := WeeklyLeaderboardAt(s, now);
    forall i | 0 <= i < |view|
      ensures view[i].count == RecentDrinksNamed(s.users, s.drinks, WeekStart(now), view[i].key)
    {
      ViewCountsOwnedDrinks(s.users, s.drinks, WeekStart(now), view[i].key);
    }
    forall i | 0 <= i < |s.users| ensures s.users[i].username in Keys(view) {
      assert Usernames(s.users)[i] == s.users[i].username;
    }
  }

  /** The view's week begins less than seven days ago, so every drink it
      counts also falls in a rolling seven-day window ending now. */
  lemma WeekInsideRollingWindow(now: int, createdAt: int)
    requires createdAt >= WeekStart(now)
    ensures createdAt >= now - Week
  {
  }
}

=== FILE: oldbot.dfy ===
/** The older, single-file bot revision: its own registration helper, a
    drink logger that registers unknown users on the fly, and its two
    slash-command handlers. */
module OldBot {
  import opened Base
  import opened Tables
  import Counting
  import Commands

  /** `ensure_server`: insert the server unless one with that id exists. */
  function EnsureServer(db: Database, id: int, name: string): (r: Database)
    ensures HasServer(r, id)
    ensures HasServer(db, id) ==> r.servers == db.servers
    ensures !HasServer(db, id) ==> r.servers == db.servers + [ServerRow(id, name)]
    ensures r.users == db.users && r.members == db.members && r.drinks == db.drinks
    ensures r.nextUserId == db.nextUserId
    ensures Valid(db) ==> Valid(r)
  {
    InsertServerIfAbsent(db, id, name)
  }

  /** `register_user`: when `server_id` is truthy, insert the server first;
      upsert the user; when `server_id` is truthy, link the two. */
  function RegisterUser(db: Database, discordId: int, username: string, serverId: Option<int>, serverName: string): (r: Returning)
    ensures UserOf(r.db, discordId) == Some(UserRow(r.id, discordId, username))
    ensures UserOf(db, discordId).Some? ==> r.id == UserOf(db, discordId).value.id && |r.db.users| == |db.users|
    ensures UserOf(db, discordId).None? ==> r.db.users == db.users + [UserRow(r.id, discordId, username)]
    ensures Valid(db) && UserOf(db, discordId).None? ==> !HasUserId(db, r.id)
    ensures forall d :: d != discordId ==> UserOf(r.db, d) == UserOf(db, d)
    ensures !Truthy(serverId) ==> r.db.servers == db.servers && r.db.members == db.members
    ensures Truthy(serverId) ==>
      && ServerName(r.db.servers, serverId.value) ==
           (if HasServer(db, serverId.value) then ServerName(db.servers, serverId.value) else Some(serverName))
      && AddsServer(db, r.db, serverId.value, serverName)
      && MemberRow(r.id, serverId.value) in r.db.members
      && AddsMember(db, r.db, MemberRow(r.id, serverId.value))
      && (Valid(db) ==> Counting.Count(r.db.members, MemberRow(r.id, serverId.value)) == 1)
    ensures r.db.drinks == db.drinks
    // the upsert draws one value from the id sequence, whether or not it conflicts
    ensures r.db.nextUserId == db.nextUserId + 1
    ensures Valid(db) ==> Valid(r.db)
  {
    var s := if Truthy(serverId) then EnsureServer(db, serverId.value, serverName) else db;
    var u := UpsertUser(s, discordId, username);
    if Truthy(serverId) then
      var m := InsertMemberIfAbsent(u.db, u.id, serverId.value);
      assert forall d :: UserOf(m, d) == UserOf(u.db, d);
      assert Valid(db) ==> Counting.Count(m.members, MemberRow(u.id, serverId.value)) == 1 by {
        if Valid(db) {
          Counting.NoDupCountOne(m.members, MemberRow(u.id, serverId.value));
        }
      }
      Returning(m, u.id)
    else u
  }

  /** Registering again with the same arguments returns the same id and
      leaves the tables as they were. */
  lemma RegisterUserIdempotent(db: Database, discordId: int, username: string, serverId: Option<int>, serverName: string)
    ensures
      var first := RegisterUser(db, discordId, username, serverId, serverName);
      var second := RegisterUser(first.db, discordId, username, serverId, serverName);
      second.id == first.id && SameRows(second.db, first.db)
  {
    var first := RegisterUser(db, discordId, username, serverId, serverName);
    var i := FindUser(first.db.users, discordId).value;
    assert first.db.users[i := first.db.users[i].(username := username)] == first.db.users;
  }

  /** The name given to a user registered by their first drink. */
  function AutoUsername(discordId: int): string {
    "User#" + IntToDecimal(discordId)
  }

  /** Auto-registered users get distinct names. */
  lemma AutoUsernamesDistinct(a: int, b: int)
    requires a != b
    ensures AutoUsername(a) != AutoUsername(b)
  {
    IntToDecimalInjective(a, b);
    assert AutoUsername(a)[5..] == IntToDecimal(a);
    assert AutoUsername(b)[5..] == IntToDecimal(b);
  }

  /** The result of `log_drink`: the database afterwards and the success flag. */
  datatype LogResult = LogResult(db: Database, ok: bool)

  /** The unknown-user branch of `log_drink`, run after its server insert:
      register "User#<discord id>" in the server, then log the drink. */
  function AutoRegisterAndLog(s: Database, discordId: int, serverId: int, serverName: string, drinkName: string, quantity: int, now: int): (r: Database)
    requires UserOf(s, discordId).None? && HasServer(s, serverId)
    ensures UserOf(r, discordId).Some?
    ensures r.users == s.users + [UserRow(UserOf(r, discordId).value.id, discordId, AutoUsername(discordId))]
    ensures r.servers == s.servers
    ensures serverId != 0 ==> AddsMember(s, r, MemberRow(UserOf(r, discordId).value.id, serverId))
    ensures serverId == 0 ==> r.members == s.members
    ensures r.nextUserId == s.nextUserId + 1
    ensures r.drinks == s.drinks + [DrinkRow(UserOf(r, discordId).value.id, serverId, drinkName, quantity, now)]
    ensures Valid(s) ==> Valid(r)
  {
    var reg := RegisterUser(s, discordId, AutoUsername(discordId), Some(serverId), serverName);
    var l := InsertDrink(reg.db, reg.id, serverId, drinkName, quantity, now);
    assert UserOf(l, discordId) == UserOf(reg.db, discordId);
    l
  }

  /** `log_drink`: insert the server unless present; look the user up and,
      when absent, register them as "User#<discord id>" in this server; then
      log one drink. Nothing in this revision calls this helper: its `/drink`
      command (`DrinkCommand` below) refuses unregistered users instead. */
  function LogDrink(db: Database, discordId: int, serverId: int, serverName: string, drinkName: string, quantity: Option<int>, now: int): (r: LogResult)
    ensures r.ok
    ensures ServerName(r.db.servers, serverId) ==
      (if HasServer(db, serverId) then ServerName(db.servers, serverId) else Some(serverName))
    ensures AddsServer(db, r.db, serverId, serverName)
    ensures UserOf(r.db, discordId).Some?
    // an unknown user is created with the generated name, linked when the id is truthy
    ensures UserOf(db, discordId).None? ==>
      && r.db.users == db.users + [UserRow(UserOf(r.db, discordId).value.id, discordId, AutoUsername(discordId))]
      && (serverId != 0 ==> MemberRow(UserOf(r.db, discordId).value.id, serverId) in r.db.members)
      && (serverId != 0 ==> AddsMember(db, r.db, MemberRow(UserOf(r.db, discordId).value.id, serverId)))
      && (serverId == 0 ==> r.db.members == db.members)
    // a known user is reused unchanged, and no membership is added
    ensures UserOf(db, discordId).Some? ==>
      && r.db.users == db.users
      && r.db.members == db.members
    // only the auto-registration draws from the id sequence
    ensures r.db.nextUserId == db.nextUserId + (if UserOf(db, discordId).None? then 1 else 0)
    ensures r.db.drinks ==
      db.drinks + [DrinkRow(UserOf(r.db, discordId).value.id, serverId, drinkName, quantity.GetOr(DefaultQuantity), now)]
    ensures Valid(db) ==> Valid(r.db)
  {
    var s := EnsureServer(db, serverId, serverName);
    var q := quantity.GetOr(DefaultQuantity);
    assert AddsServer(db, s, serverId, serverName);
    assert UserOf(s, discordId) == UserOf(db, discordId);
    match SelectUserId(s, discordId)
    case None =>
      var l := AutoRegisterAndLog(s, discordId, serverId, serverName, drinkName, q, now);
      assert l.servers == s.servers;
      LogResult(l, true)
    case Some(uid) =>
      var l := InsertDrink(s, uid, serverId, drinkName, q, now);
      assert UserOf(l, discordId) == UserOf(db, discordId);
      assert l.drinks == db.drinks + [DrinkRow(uid, serverId, drinkName, q, now)];
      LogResult(l, true)
  }

  /** `register_command`: insert the guild unless present, upsert the user as
      `str(user)`, link the two unless linked. Without a guild the very first
      statement's arguments raise, so nothing is written. */
  function RegisterCommand(db: Database, it: Commands.Interaction): (r: Commands.Outcome)
    ensures it.guild.None? ==> r.reply == Commands.Failed && r.db == db
    ensures it.guild.Some? ==> r.reply == Commands.Registered
    ensures it.guild.Some? ==> UserOf(r.db, it.userId).Some? && UserOf(r.db, it.userId).value.username == it.userText
    ensures UserOf(db, it.userId).Some? ==>
      UserOf(r.db, it.userId).Some? && UserOf(r.db, it.userId).value.id == UserOf(db, it.userId).value.id
    ensures forall d :: d != it.userId ==> UserOf(r.db, d) == UserOf(db, d)
    ensures it.guild.Some? ==>
      var g := it.guild.value;
      var uid := UserOf(r.db, it.userId).value.id;
      && ServerName(r.db.servers, g.id) ==
           (if HasServer(db, g.id) then ServerName(db.servers, g.id) else Some(g.name))
      && AddsServer(db, r.db, g.id, g.name)
      && MemberRow(uid, g.id) in r.db.members
      && AddsMember(db, r.db, MemberRow(uid, g.id))
      && (Valid(db) ==> Counting.Count(r.db.members, MemberRow(uid, g.id)) == 1)
      && r.db.nextUserId == db.nextUserId + 1
    ensures r.db.drinks == db.drinks
    ensures Valid(db) ==> Valid(r.db)
  {
    match it.guild
    case None => Commands.Outcome(db, Commands.Failed)
    case Some(g) =>
      var s := InsertServerIfAbsent(db, g.id, g.name);
      var u := UpsertUser(s, it.userId, it.userText);
      var m := InsertMemberIfAbsent(u.db, u.id, g.id);
      assert forall d :: UserOf(s, d) == UserOf(db, d);
      assert forall d :: UserOf(m, d) == UserOf(u.db, d);
      assert Valid(db) ==> Counting.Count(m.members, MemberRow(u.id, g.id)) == 1 by {
        if Valid(db) {
          Counting.NoDupCountOne(m.members, MemberRow(u.id, g.id));
        }
      }
      Commands.Outcome(m, Commands.Registered)
  }

  /** The two revisions' register commands leave the same database: the
      older one inserts the server before the user, the newer one after, and
      the two statements touch different tables. */
  lemma RegisterRevisionsAgree(db: Database, it: Commands.Interaction)
    ensures RegisterCommand(db, it) == Commands.RegisterCommand(db, it)
  {
  }

  /** `drink_command`: refuse when the user lookup returns no row; otherwise
      insert the guild unless present, link the user unless linked, log one
      drink. Without a guild the first guild read, after the lookup, raises
      before any write. */
  function DrinkCommand(db: Database, it: Commands.Interaction, drinkName: string, quantity: Option<int>, now: int): (r: Commands.Outcome)
    ensures r.reply == Commands.NotRegistered <==> UserOf(db, it.userId).None?
    ensures r.reply == Commands.Failed <==> UserOf(db, it.userId).Some? && it.guild.None?
    ensures r.reply == Commands.NotRegistered || r.reply == Commands.Failed ==> r.db == db
    ensures r.reply != Commands.NotRegistered && r.reply != Commands.Failed ==>
      var g := it.guild.value;
      var u := UserOf(db, it.userId).value;
      && r.reply == Commands.Logged(quantity.GetOr(DefaultQuantity), drinkName)
      && r.db.users == db.users
      && ServerName(r.db.servers, g.id) ==
           (if HasServer(db, g.id) then ServerName(db.servers, g.id) else Some(g.name))
      && AddsServer(db, r.db, g.id, g.name)
      && MemberRow(u.id, g.id) in r.db.members
      && AddsMember(db, r.db, MemberRow(u.id, g.id))
      && r.db.drinks == db.drinks + [DrinkRow(u.id, g.id, drinkName, quantity.GetOr(DefaultQuantity), now)]
    ensures r.db.nextUserId == db.nextUserId
    ensures Valid(db) ==> Valid(r.db)
  {
    match SelectUserId(db, it.userId)
    case None => Commands.Outcome(db, Commands.NotRegistered)
    case Some(uid) =>
      match it.guild
      case None => Commands.Outcome(db, Commands.Failed)
      case Some(g) =>
        var q := quantity.GetOr(DefaultQuantity);
        var s := InsertServerIfAbsent(db, g.id, g.name);
        var m := InsertMemberIfAbsent(s, uid, g.id);
        Commands.Outcome(InsertDrink(m, uid, g.id, drinkName, q, now), Commands.Logged(q, drinkName))
  }

  /** On a valid database the two revisions' drink commands agree: the older
      one tests for a returned row, the newer one for a truthy id, and valid ids
      are never 0. */
  lemma DrinkRevisionsAgree(db: Database, it: Commands.Interaction, drinkName: string, quantity: Option<int>, now: int)
    requires Valid(db)
    ensures DrinkCommand(db, it, drinkName, quantity, now) == Commands.DrinkCommand(db, it, drinkName, quantity, now)
  {
  }
}

=== FILE: tables.dfy ===
/** The bot's PostgreSQL database as one immutable value, and the effect of
    each SQL statement the bot issues as a pure state transformer.

    Tables are sequences of rows. The uniqueness that the database enforces
    (primary keys, `UNIQUE (discord_id)`) is not built into the representation:
    it is the invariant `Valid`, which every statement is proved to keep. */
module Tables {
  import opened Base

  /** A row of `users`; `id` is a SERIAL key, `discordId` is unique. */
  datatype UserRow = UserRow(id: int, discordId: int, username: string)

  /** A row of `servers`, keyed by the Discord guild id. */
  datatype ServerRow = ServerRow(id: int, name: string)

  /** A row of `server_members`, keyed by the pair. */
  datatype MemberRow = MemberRow(userId: int, serverId: int)

  /** A row of `drinks`; `createdAt` is the store-assigned `NOW()`. */
  datatype DrinkRow = DrinkRow(userId: int, serverId: int, drinkName: string, quantity: int, createdAt: int)

  /** The whole database. `nextUserId` is the next value of the sequence
      behind `users.id`. */
  datatype Database = Database(
    users: seq<UserRow>,
    servers: seq<ServerRow>,
    members: seq<MemberRow>,
    drinks: seq<DrinkRow>,
    nextUserId: int)

  /** A statement's effect together with the value of its `RETURNING id`. */
  datatype Returning = Returning(db: Database, id: int)

  // ---------------------------------------------------------------------------
  // The constraints the schema enforces
  // ---------------------------------------------------------------------------

  predicate UniqueUserIds(users: seq<UserRow>) {
    forall i, j :: 0 <= i < j < |users| ==> users[i].id != users[j].id
  }

  predicate UniqueDiscordIds(users: seq<UserRow>) {
    forall i, j :: 0 <= i < j < |users| ==> users[i].discordId != users[j].discordId
  }

  predicate UniqueServerIds(servers: seq<ServerRow>) {
    forall i, j :: 0 <= i < j < |servers| ==> servers[i].id != servers[j].id
  }

  predicate UniqueMembers(members: seq<MemberRow>) {
    forall i, j :: 0 <= i < j < |members| ==> members[i] != members[j]
  }

  /** Every user id was handed out by the sequence, which starts at 1. */
  predicate IdsFromSequence(db: Database) {
    && 1 <= db.nextUserId
    && forall i :: 0 <= i < |db.users| ==> 1 <= db.users[i].id < db.nextUserId
  }

  predicate Valid(db: Database) {
    && IdsFromSequence(db)
    && UniqueUserIds(db.users)
    && UniqueDiscordIds(db.users)
    && UniqueServerIds(db.servers)
    && UniqueMembers(db.members)
  }

  /** The two databases hold the same rows (the id sequence may differ). */
  predicate SameRows(a: Database, b: Database) {
    a.users == b.users && a.servers == b.servers && a.members == b.members && a.drinks == b.drinks
  }

  // ---------------------------------------------------------------------------
  // Lookups
  // ---------------------------------------------------------------------------

  /** The position of the user with `discordId`, if there is one. */
  function FindUser(users: seq<UserRow>, discordId: int): (r: Option<nat>)
    ensures r.Some? ==> r.value < |users| && users[r.value].discordId == discordId
    ensures r.Some? ==> forall i :: 0 <= i < r.value ==> users[i].discordId != discordId
    ensures r.None? <==> forall i :: 0 <= i < |users| ==> users[i].discordId != discordId
  {
    if |users| == 0 then None
    else if users[0].discordId == discordId then Some(0)
    else match FindUser(users[1..], discordId)
      case None => None
      case Some(k) => Some(k + 1)
  }

  /** `SELECT id, discord_id, username FROM users WHERE discord_id = d`. */
  function UserOf(db: Database, discordId: int): Option<UserRow> {
    match FindUser(db.users, discordId)
    case None => None
    case Some(i) => Some(db.users[i])
  }

  predicate HasUserId(db: Database, id: int) {
    exists i :: 0 <= i < |db.users| && db.users[i].id == id
  }

  predicate HasServer(db: Database, id: int) {
    exists i :: 0 <= i < |db.servers| && db.servers[i].id == id
  }

  /** `SELECT name FROM servers WHERE id = id`. */
  function ServerName(servers: seq<ServerRow>, id: int): (r: Option<string>)
    ensures r.Some? <==> exists i :: 0 <= i < |servers| && servers[i].id == id
    ensures r.Some? ==> ServerRow(id, r.value) in servers
  {
    if |servers| == 0 then None
    else if servers[0].id == id then Some(servers[0].name)
    else ServerName(servers[1..], id)
  }

  lemma {:induction false} ServerNameAppend(servers: seq<ServerRow>, s: ServerRow, id: int)
    ensures ServerName(servers + [s], id) ==
      (if ServerName(servers, id).Some? then ServerName(servers, id)
       else if s.id == id then Some(s.name) else None)
  {
    if |servers| > 0 {
      assert (servers + [s])[1..] == servers[1..] + [s];
      ServerNameAppend(servers[1..], s, id);
    }
  }

  /** `after.servers` is `before.servers` with (id, name) appended when no
      server had that id, and unchanged otherwise; every other server keeps
      its name. */
  ghost predicate AddsServer(before: Database, after: Database, id: int, name: string) {
    && (HasServer(before, id) ==> after.servers == before.servers)
    && (!HasServer(before, id) ==> after.servers == before.servers + [ServerRow(id, name)])
    && forall other :: other != id ==> ServerName(after.servers, other) == ServerName(before.servers, other)
  }

  /** `after.members` is `before.members` with `m` appended when it was
      missing, and unchanged otherwise. */
  predicate AddsMember(before: Database, after: Database, m: MemberRow) {
    && (m in before.members ==> after.members == before.members)
    && (m !in before.members ==> after.members == before.members + [m])
  }

  // ---------------------------------------------------------------------------
  // Statements
  // ---------------------------------------------------------------------------

  /** `SELECT id FROM users WHERE discord_id = %s`: the id if the user exists. */
  function SelectUserId(db: Database, discordId: int): (r: Option<int>)
    ensures r.Some? <==> exists i :: 0 <= i < |db.users| && db.users[i].discordId == discordId
    ensures r.Some? ==> exists i :: 0 <= i < |db.users| && db.users[i] == UserRow(r.value, discordId, db.users[i].username)
  {
    match UserOf(db, discordId)
    case None => None
    case Some(u) => Some(u.id)
  }

  /** `INSERT INTO users (discord_id, username) VALUES (d, name)
       ON CONFLICT (discord_id) DO UPDATE SET username = EXCLUDED.username
       RETURNING id`.
      The default `nextval` is evaluated before the conflict is detected, so
      the sequence advances on both paths. */
  function UpsertUser(db: Database, discordId: int, username: string): (r: Returning)
    ensures UserOf(r.db, discordId) == Some(UserRow(r.id, discordId, username))
    ensures UserOf(db, discordId).Some? ==> r.id == UserOf(db, discordId).value.id && |r.db.users| == |db.users|
    ensures UserOf(db, discordId).None? ==> r.db.users == db.users + [UserRow(r.id, discordId, username)]
    ensures Valid(db) && UserOf(db, discordId).None? ==> !HasUserId(db, r.id)
    ensures forall d :: d != discordId ==> UserOf(r.db, d) == UserOf(db, d)
    ensures r.db.servers == db.servers && r.db.members == db.members && r.db.drinks == db.drinks
    // `nextval` is drawn on both paths, the conflicting one included
    ensures r.db.nextUserId == db.nextUserId + 1
    ensures Valid(db) ==> Valid(r.db)
  {
    var nextId := db.nextUserId;
    match FindUser(db.users, discordId)
    case None =>
      var u := UserRow(nextId, discordId, username);
      var db' := db.(users := db.users + [u], nextUserId := nextId + 1);
      assert FindUser(db'.users, discordId) == Some(|db.users|) by {
        FindUserAppend(db.users, u, discordId);
      }
      assert forall d :: d != discordId ==> UserOf(db', d) == UserOf(db, d) by {
        forall d | d != discordId ensures UserOf(db', d) == UserOf(db, d) {
          FindUserAppend(db.users, u, d);
        }
      }
      assert Valid(db) ==> Valid(db') by {
        if Valid(db) {
          assert forall i :: 0 <= i < |db.users| ==> db.users[i].discordId != discordId;
        }
      }
      Returning(db', nextId)
    case Some(i) =>
      var db' := db.(users := db.users[i := db.users[i].(username := username)], nextUserId := nextId + 1);
      assert forall d :: FindUser(db'.users, d) == FindUser(db.users, d) by {
        forall d ensures FindUser(db'.users, d) == FindUser(db.users, d) {
          FindUserUpdateName(db.users, i, username, d);
        }
      }
      assert Valid(db) ==> Valid(db') by {
        if Valid(db) {
          assert forall j :: 0 <= j < |db.users| ==> db'.users[j].id == db.users[j].id && db'.users[j].discordId == db.users[j].discordId;
        }
      }
      Returning(db', db.users[i].id)
  }

  lemma {:induction false} FindUserAppend(users: seq<UserRow>, u: UserRow, d: int)
    ensures FindUser(users + [u], d) ==
      (if FindUser(users, d).Some? then FindUser(users, d)
       else if u.discordId == d then Some(|users|) else None)
  {
    if |users| > 0 {
      assert (users + [u])[1..] == users[1..] + [u];
      FindUserAppend(users[1..], u, d);
    }
  }

  lemma {:induction false} FindUserUpdateName(users: seq<UserRow>, i: nat, name: string, d: int)
    requires i < |users|
    ensures FindUser(users[i := users[i].(username := name)], d) == FindUser(users, d)
  {
    if |users| > 0 && i > 0 {
      assert users[i := users[i].(username := name)][1..] == users[1..][i - 1 := users[i].(username := name)];
      FindUserUpdateName(users[1..], i - 1, name, d);
    }
  }

  /** `INSERT INTO servers (id, name) VALUES (id, name) ON CONFLICT DO NOTHING`. */
  function InsertServerIfAbsent(db: Database, id: int, name: string): (r: Database)
    ensures HasServer(r, id)
    ensures ServerName(r.servers, id) == (if HasServer(db, id) then ServerName(db.servers, id) else Some(name))
    ensures forall other :: other != id ==> ServerName(r.servers, other) == ServerName(db.servers, other)
    ensures HasServer(db, id) ==> r == db
    ensures !HasServer(db, id) ==> r.servers == db.servers + [ServerRow(id, name)]
    ensures AddsServer(db, r, id, name)
    ensures r.users == db.users && r.members == db.members && r.drinks == db.drinks
    ensures r.nextUserId == db.nextUserId
    ensures Valid(db) ==> Valid(r)
  {
    if HasServer(db, id) then db
    else
      var r := db.(servers := db.servers + [ServerRow(id, name)]);
      assert r.servers[|db.servers|].id == id;
      ServerNameAppend(db.servers, ServerRow(id, name), id);
      assert forall other :: other != id ==> ServerName(r.servers, other) == ServerName(db.servers, other) by {
        forall other | other != id ensures ServerName(r.servers, other) == ServerName(db.servers, other) {
          ServerNameAppend(db.servers, ServerRow(id, name), other);
        }
      }
      r
  }

  /** `INSERT INTO server_members (user_id, server_id) VALUES (u, s)
       ON CONFLICT DO NOTHING`. */
  function InsertMemberIfAbsent(db: Database, userId: int, serverId: int): (r: Database)
    ensures MemberRow(userId, serverId) in r.members
    ensures MemberRow(userId, serverId) in db.members ==> r == db
    ensures MemberRow(userId, serverId) !in db.members ==> r.members == db.members + [MemberRow(userId, serverId)]
    ensures AddsMember(db, r, MemberRow(userId, serverId))
    ensures r.users == db.users && r.servers == db.servers && r.drinks == db.drinks
    ensures r.nextUserId == db.nextUserId
    ensures Valid(db) ==> Valid(r)
  {
    var m := MemberRow(userId, serverId);
    if m in db.members then db else db.(members := db.members + [m])
  }

  /** `INSERT INTO drinks (user_id, server_id, drink_name, quantity)
       VALUES (...)`; `created_at` takes its default `NOW()`. */
  function InsertDrink(db: Database, userId: int, serverId: int, drinkName: string, quantity: int, now: int): (r: Database)
    ensures |r.drinks| == |db.drinks| + 1
    ensures r.drinks[..|db.drinks|] == db.drinks
    ensures r.drinks[|db.drinks|] == DrinkRow(userId, serverId, drinkName, quantity, now)
    ensures r.users == db.users && r.servers == db.servers && r.members == db.members
    ensures r.nextUserId == db.nextUserId
    ensures Valid(db) ==> Valid(r)
  {
    db.(drinks := db.drinks + [DrinkRow(userId, serverId, drinkName, quantity, now)])
  }
}

=== FILE: web.dfy ===
/** The web dashboard's two queries over `drink_logs` and the statistics
    `me` computes from its query's rows. The page rendering is not modelled;
    the current time is a parameter. */
module Web {
  import opened Base
  import opened Counting

  /** A row of `drink_logs` as the dashboard reads it. */
  datatype LogRow = LogRow(
    userId: int,
    username: string,
    drinkName: string,
    drinkClass: Option<string>,
    caption: Option<string>,
    imageUrl: Option<string>,
    createdAt: int)

  /** Rows fetched per user by `me`. */
  const FetchLimit := 50

  /** Rows shown as the user's latest drinks. */
  const LastCount := 5

  function CreatedAt(r: LogRow): int {
    r.createdAt
  }

  /** The test `created_at >= now - 7 days`. */
  function IsRecent(now: int): LogRow -> bool {
    (r: LogRow) => r.createdAt >= now - Week
  }

  /** The rows of the last seven days. */
  function RecentRows(rows: seq<LogRow>, now: int): seq<LogRow> {
    Filter(rows, IsRecent(now))
  }

  /** The rows of one user: `WHERE user_id = uid`. */
  function UserRows(rows: seq<LogRow>, uid: int): seq<LogRow> {
    Filter(rows, (r: LogRow) => r.userId == uid)
  }

  /** The `username` column of `rows`, in row order. */
  function Usernames(rows: seq<LogRow>): seq<string> {
    seq(|rows|, i requires 0 <= i < |rows| => rows[i].username)
  }

  // ---------------------------------------------------------------------------
  // leaderboard
  // ---------------------------------------------------------------------------

  /** `SELECT username, COUNT(*) FROM drink_logs WHERE created_at >= now - 7 days
       GROUP BY username ORDER BY total DESC`. */
  function Leaderboard(rows: seq<LogRow>, now: int): (r: seq<Entry<string>>)
    ensures var names := Usernames(RecentRows(rows, now)); Ranks(r, names, names)
  {
    var names := Usernames(RecentRows(rows, now));
    Rank(names, names)
  }

  /** What the leaderboard promises: one row per username with a drink in the
      last seven days and no other, each count the number of that user's
      recent rows and at least 1, largest first; the counts add up to the
      number of recent rows. No truncation and no tie-break is applied. */
  lemma LeaderboardMeaning(rows: seq<LogRow>, now: int)
    ensures var board := Leaderboard(rows, now);
      var recent := RecentRows(rows, now);
      && NoDup(Keys(board))
      && (forall i :: 0 <= i < |recent| ==> recent[i].username in Keys(board))
      && (forall i :: 0 <= i < |board| ==> board[i].count >= 1)
      && (forall i :: 0 <= i < |board| ==> board[i].count == Count(Usernames(recent), board[i].key))
      && SortedDescBy(board, EntryCount)
      && Sum(board) == |recent|
  {
    var board := Leaderboard(rows, now);
    var names := Usernames(RecentRows(rows, now));
    forall i | 0 <= i < |RecentRows(rows, now)| ensures RecentRows(rows, now)[i].username in Keys(board) {
      assert names[i] == RecentRows(rows, now)[i].username;
    }
    forall i | 0 <= i < |board| ensures board[i].count >= 1 {
      assert board[i].key in names;
    }
    RankTotal(names, names);
  }

  /** A row older than seven days changes nothing on the leaderboard. */
  lemma LeaderboardIgnoresOldRows(rows: seq<LogRow>, old_row: LogRow, now: int)
    requires old_row.createdAt < now - Week
    ensures Leaderboard(rows + [old_row], now) == Leaderboard(rows, now)
  {
    FilterAppend(rows, old_row, IsRecent(now));
    assert RecentRows(rows + [old_row], now) == RecentRows(rows, now);
  }

  /** A new recent row raises its user's count by one and leaves every other
      user's count alone. */
  lemma LeaderboardCountsNewRow(rows: seq<LogRow>, row: LogRow, now: int, name: string)
    requires row.createdAt >= now - Week
    ensures Count(Usernames(RecentRows(rows + [row], now)), name) ==
      Count(Usernames(RecentRows(rows, now)), name) + (if row.username == name then 1 else 0)
  {
    FilterAppend(rows, row, IsRecent(now));
    assert Usernames(RecentRows(rows + [row], now)) == Usernames(RecentRows(rows, now)) + [row.username];
  }

  // ---------------------------------------------------------------------------
  // me
  // ---------------------------------------------------------------------------

  /** `out` is a valid answer to `SELECT ... WHERE user_id = uid ORDER BY
      created_at DESC LIMIT 50`: rows of that user only, newest first, as many
      as exist up to 50, and no left-out row newer than one that was fetched.
      Which of several rows with equal timestamps make the cut is left open. */
  predicate IsNewestPage(rows: seq<LogRow>, uid: int, out: seq<LogRow>) {
    var mine := UserRows(rows, uid);
    && |out| == Min(FetchLimit, |mine|)
    && multiset(out) <= multiset(mine)
    && SortedDescBy(out, CreatedAt)
    && forall r :: r in multiset(mine) - multiset(out) ==>
         forall i :: 0 <= i < |out| ==> r.createdAt <= out[i].createdAt
  }

  /** Any newest-first ordering of the user's rows, cut at 50, is a valid page. */
  lemma NewestPageOfSorted(rows: seq<LogRow>, uid: int, sorted: seq<LogRow>)
    requires SortedDescBy(sorted, CreatedAt)
    requires multiset(sorted) == multiset(UserRows(rows, uid))
    ensures IsNewestPage(rows, uid, sorted[..Min(FetchLimit, |sorted|)])
  {
    assert |sorted| == |multiset(sorted)| == |UserRows(rows, uid)|;
    SortedPrefixDominates(sorted, Min(FetchLimit, |sorted|), CreatedAt);
  }

  /** The user's rows, newest first, cut at 50. */
  function FetchUserDrinks(rows: seq<LogRow>, uid: int): (out: seq<LogRow>)
    ensures IsNewestPage(rows, uid, out)
    ensures forall i :: 0 <= i < |out| ==> out[i].userId == uid
  {
    var mine := UserRows(rows, uid);
    var sorted := SortDescBy(mine, CreatedAt);
    var k := Min(FetchLimit, |sorted|);
    var out := sorted[..k];
    NewestPageOfSorted(rows, uid, sorted);
    forall i | 0 <= i < |out| ensures out[i].userId == uid {
      assert out[i] in multiset(mine);
    }
    out
  }

  /** A row has a drink class Python counts: present and non-empty. */
  predicate HasClass(r: LogRow) {
    r.drinkClass.Some? && r.drinkClass.value != ""
  }

  /** `cs` holds the class of each classified row of `rows`, in the rows'
      order. */
  predicate ListsClasses(rows: seq<LogRow>, cs: seq<string>) {
    var kept := Filter(rows, HasClass);
    |cs| == |kept| && forall i :: 0 <= i < |cs| ==> cs[i] == kept[i].drinkClass.value
  }

  /** `[d[1] for d in drinks if d[1]]`: the non-empty classes, in row order. */
  function ClassesOf(rows: seq<LogRow>): (cs: seq<string>)
    ensures forall i :: 0 <= i < |cs| ==> cs[i] != ""
    ensures |cs| == 0 <==> forall i :: 0 <= i < |rows| ==> !HasClass(rows[i])
    // one class per classified row, in the rows' order
    ensures var kept := Filter(rows, HasClass);
      |cs| == |kept| && forall i :: 0 <= i < |cs| ==> cs[i] == kept[i].drinkClass.value
  {
    if |rows| == 0 then []
    else
      var rest := ClassesOf(rows[1..]);
      var cs := if HasClass(rows[0]) then [rows[0].drinkClass.value] + rest else rest;
      ListsClassesCons(rows, rest);
      assert ListsClasses(rows, cs);
      FilterEmpty(rows, HasClass);
      cs
  }

  /** Prepending a row extends the class list by its class, if it has one. */
  lemma ListsClassesCons(rows: seq<LogRow>, rest: seq<string>)
    requires |rows| > 0
    requires ListsClasses(rows[1..], rest)
    ensures ListsClasses(rows, if HasClass(rows[0]) then [rows[0].drinkClass.value] + rest else rest)
  {
    var keptRest := Filter(rows[1..], HasClass);
    if HasClass(rows[0]) {
      var cs := [rows[0].drinkClass.value] + rest;
      var kept := Filter(rows, HasClass);
      assert kept == [rows[0]] + keptRest;
      forall i | 0 <= i < |cs| ensures cs[i] == kept[i].drinkClass.value {
        if i > 0 {
          assert cs[i] == rest[i - 1] && kept[i] == keptRest[i - 1];
        }
      }
    } else {
      assert Filter(rows, HasClass) == keptRest;
    }
  }

  /** What `me` hands to its page. */
  datatype Stats = Stats(
    drinks: seq<LogRow>,
    total: nat,
    lastDrinks: seq<LogRow>,
    favorite: Option<string>,
    weeklyCount: nat)

  /** `me`: fetch the user's newest 50 rows, then count them, keep the first
      five, find the most common class, and count those of the last seven days. */
  method Me(rows: seq<LogRow>, uid: int, now: int) returns (st: Stats)
    ensures IsNewestPage(rows, uid, st.drinks)
    ensures st.total == |st.drinks| && st.total <= FetchLimit
    ensures st.total == Min(FetchLimit, |UserRows(rows, uid)|)
    ensures |st.lastDrinks| == Min(LastCount, st.total) && st.lastDrinks <= st.drinks
    ensures st.favorite.None? <==> forall i :: 0 <= i < |st.drinks| ==> !HasClass(st.drinks[i])
    ensures st.favorite.Some? ==> st.favorite.value != "" && IsMostCommon(ClassesOf(st.drinks), st.favorite.value)
    ensures forall r :: r in st.drinks && r.createdAt >= now - Week ==> r in RecentRows(st.drinks, now)
    ensures forall r :: r in RecentRows(st.drinks, now) ==> r in st.drinks && r.createdAt >= now - Week
    ensures st.weeklyCount == |RecentRows(st.drinks, now)| && st.weeklyCount <= st.total
  {
    var drinks := FetchUserDrinks(rows, uid);
    var total := |drinks|;
    var last := drinks[..Min(LastCount, total)];
    var classes := ClassesOf(drinks);
    var favorite := MostCommon(classes);
    var weekly := |RecentRows(drinks, now)|;
    st := Stats(drinks, total, last, favorite, weekly);
  }

  // ---------------------------------------------------------------------------
  // me on the SQLite backend
  // ---------------------------------------------------------------------------

  /** A `created_at` value as Python sees it. The PostgreSQL driver returns a
      `datetime`; `sqlite3.connect` without `detect_types` returns the stored
      text unchanged. */
  datatype PyTimestamp = PyDatetime(seconds: int) | PyText(text: string)

  /** The exception Python raises for `>=` between text and a `datetime`. */
  datatype PyError = TypeError

  /** `sum(1 for d in drinks if d[4] >= one_week_ago)`, evaluated row by row
      from the front: the first non-`datetime` value raises. */
  function WeeklyCountAsWritten(stamps: seq<PyTimestamp>, weekAgo: int): (r: Result<nat, PyError>)
    ensures r.Err? <==> exists i :: 0 <= i < |stamps| && stamps[i].PyText?
    ensures r.Ok? ==> r.value <= |stamps|
  {
    if |stamps| == 0 then Ok(0)
    else
      assert forall i :: 1 <= i < |stamps| ==> stamps[i] == stamps[1..][i - 1];
      match stamps[0]
      case PyText(_) => Err(TypeError)
      case PyDatetime(t) =>
        match WeeklyCountAsWritten(stamps[1..], weekAgo)
        case Err(e) => Err(e)
        case Ok(n) => Ok(n + if t >= weekAgo then 1 else 0)
  }

  /** On the SQLite backend every fetched `created_at` is text, so `me`
      raises for every user with at least one row. */
  lemma SqliteWeeklyCountRaises(stamps: seq<PyTimestamp>, weekAgo: int)
    requires |stamps| > 0
    requires forall i :: 0 <= i < |stamps| ==> stamps[i].PyText?
    ensures WeeklyCountAsWritten(stamps, weekAgo) == Err(TypeError)
  {
    assert stamps[0].PyText?;
  }

  /** The page's timestamps as the PostgreSQL driver returns them. */
  function Datetimes(rows: seq<LogRow>): seq<PyTimestamp> {
    seq(|rows|, i requires 0 <= i < |rows| => PyDatetime(rows[i].createdAt))
  }

  /** With `datetime` values the sum is what `me` is meant to show, and what
      `Me` computes: the number of fetched rows from the last seven days. */
  lemma {:induction false} WeeklyCountOnDatetimes(rows: seq<LogRow>, now: int)
    ensures WeeklyCountAsWritten(Datetimes(rows), now - Week) == Ok(|RecentRows(rows, now)|)
  {
    if |rows| > 0 {
      assert Datetimes(rows)[1..] == Datetimes(rows[1..]);
      WeeklyCountOnDatetimes(rows[1..], now);
    }
  }
}
